=== FILE: README.md ===
# Three pure cores of an operations-script repository, in Dafny

The repository holds small one-shot scripts. Three of them carry logic that can be modelled apart from their I/O:

- **JWK to PEM** (`Storage/8_emptydir/jwk_to_pem.py`). `b64url_to_long` turns the `n` and `e` members of an RSA JSON Web Key into integers. It works in three steps:
  - pad the string with `=` to a multiple of 4;
  - decode it with the base64url alphabet of section 5 of RFC 4648;
  - read the bytes as an unsigned big-endian integer (Base64urlUInt, section 2 and section 6.3.1 of RFC 7518).

  The script then reads `n` and `e` out of the key dictionary.
  - `bytes.dfy` covers the big-endian value and its inverse.
  - `base64url.dfy` covers the alphabet, the padding and the decoder, with an unpadded encoder as its partner.
  - `jwk.dfy` covers `b64url_to_long` and the `n`/`e` extraction.
- **Book-lending app** (`Toy/library_app.py`). The `books` table is a map from id to row plus AUTOINCREMENT's high-water mark. Each route's SQL statement is a transition on that state: seeding, add, borrow, return, delete and edit.
  - `library.dfy` holds the table and the transitions.
  - `library_properties.dfy` proves several facts about the transitions:
    - every transition keeps each row's id within those AUTOINCREMENT issued;
    - every transition keeps the loan invariant from every table the app can reach, the borrow as written included;
    - the corrected borrow also keeps the 14-day loan term;
    - the algebra of borrow and return.
  - `library_index.dfy` holds the filtered, id-ordered listing and the two status counts of the index page.
  - `civil_date.dfy` models the calendar dates that `datetime` and `timedelta(days=14)` compute with. Dates are proleptic Gregorian, from 0001-01-01 to 9999-12-31.
- **Calendar sync** (`googlecalender/eks-calendar-sync.py`).
  - `calendar_sync.dfy` holds the request body `create_event` builds, the success count of `main`'s loop, and the per-category tally. The tally is an insertion-ordered list of (category, count) pairs, because a Python dict keeps insertion order.
  - `eks_schedule.dfy` holds the sixteen events of `EVENTS` and what they tally to.

Two details of the code carry through to the model:

- The padding is `-len % 4` characters, which is 3 when the length is 1 more than a multiple of 4. Such a string has no decoding: Python raises `binascii.Error`, and the model returns `None`.
- The script's own code adds no check on the decoded modulus `n` or the exponent `e`, and the model does not either. The checks that `public_key()` makes when it builds the key (line 25) belong to the key construction, which is left out.

## Model

| member | source | states |
|---|---|---|
| Bytes.FromBytesBig | Storage/8_emptydir/jwk_to_pem.py:19 | `int.from_bytes(b, "big")` is below 256^\|b\| |
| Bytes.FromBytesBigIsWeightedSum | Storage/8_emptydir/jwk_to_pem.py:19 | the value is the sum of b[i]·256^(\|b\|−1−i); the empty sequence gives 0 |
| Bytes.LeadingZeroIgnored | Storage/8_emptydir/jwk_to_pem.py:19 | a leading zero byte does not change the value |
| Bytes.LeadingZerosIgnored | Storage/8_emptydir/jwk_to_pem.py:19 | any number of leading zero bytes leaves the value unchanged |
| Bytes.LeadingByteBound | Storage/8_emptydir/jwk_to_pem.py:19 | the value is at least the first byte times 256^(\|b\|−1), so a non-zero leading byte fixes the magnitude |
| Bytes.ToBytesBig | Storage/8_emptydir/jwk_to_pem.py:19 | `k.to_bytes(m, "big")` is exactly m bytes long for any k below 256^m |
| Bytes.FromToBytesBig | Storage/8_emptydir/jwk_to_pem.py:19 | reading the m-byte big-endian form of k gives k |
| Bytes.ToFromBytesBig | Storage/8_emptydir/jwk_to_pem.py:19 | writing the value of b back in \|b\| bytes gives b |
| Base64Url.SextetOf | Storage/8_emptydir/jwk_to_pem.py:19 | the value of a base64url character is the one CharOf maps back to it |
| Base64Url.SextetOfCharOf | Storage/8_emptydir/jwk_to_pem.py:19 | the character of a value reads back as that value |
| Base64Url.CharOfIsAlphabet | Storage/8_emptydir/jwk_to_pem.py:19 | the character table is the 64-character RFC 4648 alphabet, with `-` as 62 and `_` as 63 |
| Base64Url.PadLength | Storage/8_emptydir/jwk_to_pem.py:18 | `-len % 4` is 0 to 3, tops the length up to a multiple of 4, and equals (4 − len mod 4) mod 4 |
| Base64Url.PadLengthThree | Storage/8_emptydir/jwk_to_pem.py:18 | three pad characters are added exactly when the length is 1 more than a multiple of 4 |
| Base64Url.Pad | Storage/8_emptydir/jwk_to_pem.py:18 | the padded string keeps the input as its prefix, adds at most 3 `=`, has a length that is a multiple of 4, and leaves an aligned string unchanged |
| Base64Url.QuantumRoundTrip | Storage/8_emptydir/jwk_to_pem.py:19 | four sextets regroup into three bytes and back without loss |
| Base64Url.EncodeUnpadded | Storage/8_emptydir/jwk_to_pem.py:19 | the unpadded encoding uses only the alphabet, has length ⌈4n/3⌉, and its length is never 1 more than a multiple of 4 |
| Base64Url.UnpaddedRoundTrip | Storage/8_emptydir/jwk_to_pem.py:19 | decoding the unpadded encoding of any byte string gives that byte string |
| Base64Url.DecodeUnpadded | Storage/8_emptydir/jwk_to_pem.py:19 | regrouping 6-bit values into bytes: every 4 characters give 3 bytes, and a final group of 2 or 3 characters gives 1 or 2 bytes |
| Base64Url.DecodePadded | Storage/8_emptydir/jwk_to_pem.py:19 | on the strings padding makes from base64url text: a string decodes exactly when its length is a multiple of 4, it ends in at most two `=`, and all other characters are in the alphabet; every 4 characters give 3 bytes, minus one byte per trailing `=` |
| Base64Url.DecodePaddedOfPad | Storage/8_emptydir/jwk_to_pem.py:18-19 | after padding, a string decodes exactly when its length is not 1 more than a multiple of 4, and then it decodes as the unpadded decoder says |
| Base64Url.PadDecodeRoundTrip | Storage/8_emptydir/jwk_to_pem.py:18-19 | padding and then decoding the unpadded encoding of any byte string gives that byte string |
| JwkToPem.B64UrlToLong | Storage/8_emptydir/jwk_to_pem.py:17-19 | `b64url_to_long` succeeds exactly when the length is not 1 more than a multiple of 4; the result is below 256 to the power of the decoded length |
| JwkToPem.B64UrlToLongOfEncoding | Storage/8_emptydir/jwk_to_pem.py:17-19 | the unpadded encoding of any byte string converts to that string's big-endian value |
| JwkToPem.B64UrlToLongRoundTrip | Storage/8_emptydir/jwk_to_pem.py:17-19 | any integer that fits in m bytes survives the encoding of its m-byte form |
| JwkToPem.B64UrlToLongLeadingZeros | Storage/8_emptydir/jwk_to_pem.py:17-19 | leading zero bytes in the encoded form do not change the integer |
| JwkToPem.SampleExponentIs65537 | Storage/8_emptydir/jwk_to_pem.py:13 | `"AQAB"` decodes to the bytes 1, 0, 1 and to the integer 65537 |
| JwkToPem.PublicNumbersOf | Storage/8_emptydir/jwk_to_pem.py:21-22 | the numbers exist exactly when both `n` and `e` are present and decodable |
| JwkToPem.PublicNumbersRoundTrip | Storage/8_emptydir/jwk_to_pem.py:21-22 | a key whose `n` and `e` encode two integers yields exactly those two integers |
| JwkToPem.OtherMembersIgnored | Storage/8_emptydir/jwk_to_pem.py:7-14 | setting any member other than `n` and `e` leaves the numbers unchanged |
| JwkToPem.OnlyNumericMembersRead | Storage/8_emptydir/jwk_to_pem.py:21-22 | two keys that agree on `n` and `e` give the same numbers |
| JwkToPem.SampleKeyExponent | Storage/8_emptydir/jwk_to_pem.py:13-22 | a key carrying the script's exponent has public exponent 65537 |
| CivilDate.NextDay | Toy/library_app.py:109 | the next day is valid and its day number is one more; it is missing exactly for 9999-12-31 |
| CivilDate.AddDays | Toy/library_app.py:109 | `date + timedelta(days=k)` exists exactly when it does not pass 9999-12-31, and then lies exactly k day numbers later |
| CivilDate.DayNumberInjective | Toy/library_app.py:109 | distinct valid dates have distinct day numbers, so "k days later" names one date |
| CivilDate.DayNumberAtMostLast | Toy/library_app.py:109 | no valid date lies past 9999-12-31 |
| Library.StatusText | Toy/library_app.py:21 | the status column holds `available` or `borrowed` |
| Library.InsertRow | Toy/library_app.py:14 | an INSERT takes the next AUTOINCREMENT id, adds only that row, and leaves the other rows alone |
| Library.NewBook | Toy/library_app.py:97-98 | the added row is available, with no borrower and no dates |
| Library.Lend | Toy/library_app.py:113-116 | the loan UPDATE sets the borrower, both dates and status `borrowed` on the row and keeps its catalogue columns; it leaves the other rows, the ids and the counter alone, and an absent id matches no row |
| Library.AddBook | Toy/library_app.py:90-98 | add inserts one new available row under the next id; when every id is one AUTOINCREMENT issued, that id is fresh and above every existing id, and existing rows are unchanged; a missing title or author changes nothing |
| Library.Borrow | Toy/library_app.py:106-116 | borrow marks the row borrowed with the given borrower, today's date and a return date exactly 14 days on, and keeps its catalogue columns; other rows, the ids and the counter are unchanged; an absent id, or a return date past 9999-12-31, changes nothing |
| Library.BorrowAsWritten | Toy/library_app.py:106-116 | the code as written sets status 'borrowed', the given borrower and keeps the catalogue columns, like Borrow, but takes the borrow date from one clock read and the due date from 14 days after a second read; an absent id, or a second read whose due date would pass 9999-12-31, leaves the table unchanged |
| Library.BorrowAsWrittenSameDay | Toy/library_app.py:108-109 | when both clock reads fall on the same day, the code as written does what Borrow does |
| Library.BorrowAcrossMidnightBreaksTerm | Toy/library_app.py:108-109 | when the second read falls a day after the first, the recorded loan is 15 days long and breaks the loan term |
| Library.MidnightCounterexample | Toy/library_app.py:108-109 | a concrete request read on 2024-02-01 and then on 2024-02-02 records a 15-day loan |
| Library.Return | Toy/library_app.py:124-130 | return clears the borrower and both dates, marks the row available, and keeps the catalogue columns and the other rows |
| Library.Edit | Toy/library_app.py:161-169 | edit replaces title, author and image URL only; loan columns and other rows are untouched; an absent id or a missing title or author changes nothing |
| Library.Delete | Toy/library_app.py:138-141 | delete removes exactly the given id, keeps every other row, and keeps the counter |
| Library.InsertAll | Toy/library_app.py:38 | `executemany` gives the rows consecutive ids after the counter, in order |
| Library.SeedIfEmpty | Toy/library_app.py:26-38 | seeding touches only an empty table, and numbers the sample rows in order after the counter |
| Library.InitDb | Toy/library_app.py:9-38 | `init_db` leaves a non-empty table alone and seeds an empty one under fresh ids above the counter; afterwards the table is never empty, and ids stay within those issued |
| LibraryProperties.AddBookKeepsInvariant | Toy/library_app.py:97-98 | from any table whose ids were issued and whose loans are consistent, add keeps both; from a table that also keeps the 14-day term, it keeps that too |
| LibraryProperties.BorrowKeepsInvariant | Toy/library_app.py:113-116 | from any table whose ids were issued and whose loans are consistent, the corrected borrow keeps both; from a table that also keeps the 14-day term, it keeps that too |
| LibraryProperties.ReturnKeepsInvariant | Toy/library_app.py:127-130 | from any table whose ids were issued and whose loans are consistent, return keeps both; from a table that also keeps the 14-day term, it keeps that too |
| LibraryProperties.EditKeepsInvariant | Toy/library_app.py:168 | from any table whose ids were issued and whose loans are consistent, edit keeps both; from a table that also keeps the 14-day term, it keeps that too |
| LibraryProperties.DeleteKeepsInvariant | Toy/library_app.py:141 | from any table whose ids were issued and whose loans are consistent, delete keeps both; from a table that also keeps the 14-day term, it keeps that too |
| LibraryProperties.BorrowAsWrittenKeepsLoansConsistent | Toy/library_app.py:106-116 | the borrow as written keeps the loan invariant and the id bound; only the 14-day term can break |
| LibraryProperties.InsertsKeepIdsIssued | Toy/library_app.py:14 | a fresh table has only issued ids, and add keeps it so |
| LibraryProperties.UpdatesKeepIdsIssued | Toy/library_app.py:124-169 | return, edit and delete keep every id within those AUTOINCREMENT issued |
| LibraryProperties.BorrowsKeepIdsIssued | Toy/library_app.py:106-116 | both the corrected borrow and the borrow as written keep every id within those issued |
| LibraryProperties.SameIdsKeepIdsIssued | Toy/library_app.py:113-116 | an UPDATE that keeps the ids and the counter keeps them issued |
| LibraryProperties.SampleBooksConsistent | Toy/library_app.py:29-36 | every sample row keeps the loan invariant, and each seeded loan runs exactly 14 days |
| LibraryProperties.SeedKeepsInvariant | Toy/library_app.py:26-38 | seeding with consistent rows keeps issued ids and consistent loans, and keeps the whole table invariant when the table had it |
| LibraryProperties.InitDbKeepsInvariant | Toy/library_app.py:9-38 | `init_db` keeps issued ids and consistent loans, and keeps the whole table invariant when the table had it |
| LibraryProperties.SampleBooksCounts | Toy/library_app.py:28-37 | there are 8 sample books: 3 borrowed and 5 available |
| LibraryProperties.SeedFreshTable | Toy/library_app.py:26-38 | seeding a fresh table numbers the rows from 1, and seeding again changes nothing |
| LibraryProperties.InitDbOnFreshTable | Toy/library_app.py:9-38 | on a fresh table `init_db` leaves ids 1 to 8 holding the sample books in order, and the invariant holds |
| LibraryProperties.InitDbOnEmpty | Toy/library_app.py:26-38 | any empty table, including one emptied by deletes before a restart, gets the eight sample rows in order under the eight ids after the counter, and nothing else |
| LibraryProperties.InitDbIdempotent | Toy/library_app.py:26-27 | running `init_db` a second time changes nothing |
| LibraryProperties.ReturnIdempotent | Toy/library_app.py:127-130 | returning twice is the same as returning once |
| LibraryProperties.ReturnAvailableIsNoOp | Toy/library_app.py:127-130 | returning an available book whose loan columns are empty changes nothing |
| LibraryProperties.ReturnUndoesBorrow | Toy/library_app.py:113-130 | borrowing an available book whose loan columns are empty and then returning it restores the table |
| LibraryProperties.BorrowOverwritesLoan | Toy/library_app.py:113-116 | a second borrow of the same book replaces the first loan entirely |
| LibraryProperties.LendTwice | Toy/library_app.py:113-116 | a second loan UPDATE on the same row replaces the first |
| LibraryProperties.BorrowDueDateUnique | Toy/library_app.py:109 | the recorded return date is the one date 14 days after the borrow date |
| LibraryProperties.DeletedIdNotReused | Toy/library_app.py:14 | when every id is one AUTOINCREMENT issued, a later add after a delete never hands out the deleted id again |
| LibraryIndex.Contains | Toy/library_app.py:55-56 | the search matches exactly when the text occurs somewhere in the field |
| LibraryIndex.Matches | Toy/library_app.py:53-64 | filter `all` with no search matches every book; any other filter matches only books whose status text equals it; a non-empty search matches only books whose title or author contains it |
| LibraryIndex.ListFrom | Toy/library_app.py:53-64 | the listing is in strictly ascending id order, and every listed row is the table's current row |
| LibraryIndex.ListFromIds | Toy/library_app.py:53-64 | an id is listed exactly when its row exists and matches the status filter and the search |
| LibraryIndex.ListBooks | Toy/library_app.py:53-64 | the listing is id-ordered and lists only matching rows, each with its current contents; when every id is one AUTOINCREMENT issued, it lists every matching row |
| LibraryIndex.StatusFilterSplits | Toy/library_app.py:64 | with no search, the filter `available` keeps exactly the available books and `borrowed` exactly the borrowed ones |
| LibraryIndex.StatusCountsFrom | Toy/library_app.py:69-72 | the available count plus the borrowed count equals the number of rows |
| LibraryIndex.Index | Toy/library_app.py:50-72 | the index page shows the filtered listing; when every id is one AUTOINCREMENT issued, the two counts together cover every book, and each count is exactly the number of books with its status |
| LibraryIndex.ListAllIsEverything | Toy/library_app.py:58 | when every id is one AUTOINCREMENT issued, filter `all` with no search lists every book |
| LibraryIndex.StatusFilterExact | Toy/library_app.py:64 | a status filter lists only books with that status; when every id is one AUTOINCREMENT issued, it lists all of them |
| LibraryIndex.AscendingIdsCount | Toy/library_app.py:53-64 | a listing in strictly ascending id order (`ORDER BY id` over a primary key) names each book once, so its length is the number of ids it lists |
| LibraryIndex.StatusFilterCount | Toy/library_app.py:64-72 | when every id is one AUTOINCREMENT issued, the status-filtered listing with no search text is as long as the number of books with that status |
| CalendarSync.CreateEventBody | googlecalender/eks-calendar-sync.py:193-205 | both ends carry time zone Asia/Seoul; default reminders are off; there are exactly two overrides, e-mail at 1440 minutes and then pop-up at 60 |
| CalendarSync.BodyRoundTrip | googlecalender/eks-calendar-sync.py:188-199 | summary, description, start and end dates and colour are copied verbatim, so the event can be read back from its body |
| CalendarSync.BodyIgnoresOnlyCategory | googlecalender/eks-calendar-sync.py:188-207 | two events give the same body exactly when they differ at most in category |
| CalendarSync.SendAll | googlecalender/eks-calendar-sync.py:223-234 | one body is built per event, in order, and `success_count` is the number of accepted inserts, so at most `len(EVENTS)` |
| CalendarSync.Bump | googlecalender/eks-calendar-sync.py:240 | the update keeps the keys distinct, so each category has one entry |
| CalendarSync.BumpCounts | googlecalender/eks-calendar-sync.py:240 | `categories[c] = categories.get(c, 0) + 1` raises c's count by one, changes no other count, and adds one to the total |
| CalendarSync.BumpCategories | googlecalender/eks-calendar-sync.py:240 | the update adds c to the keys and nothing else |
| CalendarSync.BumpNew | googlecalender/eks-calendar-sync.py:240 | a key not yet present is appended at the end with count 1 |
| CalendarSync.BumpLast | googlecalender/eks-calendar-sync.py:240 | bumping the last key raises only that entry |
| CalendarSync.TallyBelowCounts | googlecalender/eks-calendar-sync.py:237-240 | after k events every count is positive, the counts sum to k, and each key counts its events |
| CalendarSync.Tally | googlecalender/eks-calendar-sync.py:237-240 | keys are distinct, counts are at least 1 and sum to `len(EVENTS)`, and each key's count is its number of events |
| CalendarSync.TallyBelowCategories | googlecalender/eks-calendar-sync.py:237-240 | after k events the keys are exactly the categories of those k events |
| CalendarSync.TallyCategories | googlecalender/eks-calendar-sync.py:237-240 | the keys are exactly the categories that occur |
| CalendarSync.CountCategories | googlecalender/eks-calendar-sync.py:237-240 | the loop computes a tally with distinct, positive counts that sum to the number of events and count each category |
| CalendarSync.TallyRun | googlecalender/eks-calendar-sync.py:237-240 | a run of events of the last key raises its count by the run's length |
| CalendarSync.TallyNewRun | googlecalender/eks-calendar-sync.py:237-240 | a run of a new category appends it with the run's length |
| EksSchedule.EventsAreOneDayAndColoured | googlecalender/eks-calendar-sync.py:24-158 | there are 16 events; each starts and ends on the same day, and its colour is fixed by its category (9, 11, 10) |
| EksSchedule.TallyThreeRuns | googlecalender/eks-calendar-sync.py:237-240 | three runs of distinct categories tally to three entries, in run order |
| EksSchedule.EventsTally | googlecalender/eks-calendar-sync.py:24-158 | the events tally to 구축 4, 업그레이드 7 and HELM배포 5, in that order |

## Left out

- Key construction and PEM/DER serialisation (`jwk_to_pem.py:25-31`) are delegated to the `cryptography` library, so they are not modelled. The model stops at the (e, n) pair that `RSAPublicNumbers` receives. In particular the checks `public_key()` makes at line 25, which raise `ValueError` when n < 3, e < 3, e ≥ n or e is even, are not modelled: PublicNumbersOf yields such pairs.
- The write of `sa.pub` and the final print (`jwk_to_pem.py:33-36`) are file and console I/O.
- JwkToPem.B64UrlToLong: requires its input to consist of base64url alphabet characters. Python behaves differently on other input, and the model does not cover it:
  - a non-ASCII character makes `urlsafe_b64decode` raise `ValueError`;
  - `=` is padding to the decoder: once `=` characters complete a group of two or three data characters, decoding stops there, so "AQ==AQAB" decodes to the single byte 0x01 (a lone `=` after two data characters, as in "AQ=AQAB", raises "Incorrect padding");
  - any other ASCII character outside the alphabet is discarded by the lenient decoder;
  - `+` and `/` are accepted as 62 and 63.
- JwkToPem.PublicNumbersOf: requires `n` and `e`, when present, to be base64url alphabet text, the same restriction as B64UrlToLong. A key whose members hold `=`, `+`, `/`, other ASCII or non-ASCII characters is not covered.
- Base64Url.DecodePadded: agrees with `urlsafe_b64decode` only on the strings Pad makes from base64url text, which are the only strings `b64url_to_long` hands it. Python's lenient decoder also accepts surplus `=`: "AAAA=" gives three bytes, "====" gives none and "AAA==" gives two. The model returns `None` for such strings.
- The 342-character modulus of the sample key is not included as a literal. Its exponent `AQAB` is.
- Flask routing, templates, redirects, sqlite connections and commits are left out. The `edit_form` page is left out too, including its crash on a missing id.
- `datetime.now()` is a clock read, so it is a parameter: `today` in Borrow, and the two reads in BorrowAsWritten.
- `strftime('%Y-%m-%d')` formatting is not modelled. Dates are stored as year, month, day records.
- LibraryIndex.Contains: models `LIKE '%search%'` as a plain substring test. SQLite's ASCII case folding, and `%` and `_` inside the search text acting as wildcards, are not modelled.
- SQLite's failure when AUTOINCREMENT reaches the largest 64-bit id is not modelled. The counter is unbounded.
- A request that fails is modelled as leaving the table unchanged: a NOT NULL violation makes the statement fail, and a due date past 9999-12-31 raises `OverflowError` at line 109 before any statement runs. The HTTP 500 response that goes with either is not modelled.
- The OAuth token pickle, the OAuth flow, the Calendar API `insert` and all console printing in `eks-calendar-sync.py` are left out. Whether each insert succeeded is the `accepted` input of SendAll.
- `Opensearch/snapshot/koo.py` and `Opensearch/snapshot.py` hold only configuration and one HTTP call each, so they are not part of this model.

## Findings

| source | as written | input that shows it | evidently intended | confidence | as-written member | corrected member |
|---|---|---|---|---|---|---|
| Toy/library_app.py:108-109 | the borrow date and the return date come from two separate `datetime.now()` calls | a request whose first read falls on 2024-02-01 at 23:59:59.999 and whose second read falls on 2024-02-02 records borrow date 2024-02-01 and return date 2024-02-16, a 15-day loan | one clock read, with the return date exactly 14 days after the recorded borrow date | not executed | Library.BorrowAsWritten, Library.BorrowAcrossMidnightBreaksTerm, Library.MidnightCounterexample | Library.Borrow, LibraryProperties.BorrowKeepsInvariant |

=== FILE: base64url.dfy ===
/**
 * The "URL and Filename safe" base64 alphabet of section 5 of RFC 4648, the
 * padding step that makes an unpadded string acceptable to Python's
 * `base64.urlsafe_b64decode`, and the decoder itself on the strings that
 * padding produces. The unpadded encoder is the decoder's partner: the two
 * form a round trip on every byte string.
 */
module Base64Url {
  import opened Wrappers
  import opened Bytes

  /** A 6-bit group: the value of one base64 character. */
  type Sextet = x: int | 0 <= x < 64

  /** The alphabet of section 5 of RFC 4648, in value order, eight characters per piece. */
  const Alphabet: string :=
    "ABCDEFGH" + "IJKLMNOP" + "QRSTUVWX" + "YZabcdef" + "ghijklmn" + "opqrstuv" + "wxyz0123" + "456789-_"

  const PadChar: char := '='

  predicate IsAlphabetChar(c: char) {
    ('A' <= c <= 'Z') || ('a' <= c <= 'z') || ('0' <= c <= '9') || c == '-' || c == '_'
  }

  /** A string made only of base64url characters (no padding). */
  predicate IsBase64Url(s: string) {
    forall i :: 0 <= i < |s| ==> IsAlphabetChar(s[i])
  }

  /** The character that encodes a sextet. */
  function CharOf(v: Sextet): (c: char)
    ensures IsAlphabetChar(c)
  {
    if v < 26 then ('A' as int + v) as char
    else if v < 52 then ('a' as int + (v - 26)) as char
    else if v < 62 then ('0' as int + (v - 52)) as char
    else if v == 62 then '-'
    else '_'
  }

  /** The sextet a base64url character stands for; the inverse of CharOf. */
  function SextetOf(c: char): (v: Sextet)
    requires IsAlphabetChar(c)
    ensures CharOf(v) == c
  {
    if 'A' <= c <= 'Z' then c as int - 'A' as int
    else if 'a' <= c <= 'z' then c as int - 'a' as int + 26
    else if '0' <= c <= '9' then c as int - '0' as int + 52
    else if c == '-' then 62
    else 63
  }

  /** CharOf is injective, so SextetOf undoes it. */
  lemma SextetOfCharOf(v: Sextet)
    ensures SextetOf(CharOf(v)) == v
  {
  }

  /** CharOf agrees with the alphabet table from position i on. */
  predicate TableAgreesFrom(table: string, i: nat)
    decreases 64 - i
  {
    i >= 64 || (i < |table| && CharOf(i) == table[i] && TableAgreesFrom(table, i + 1))
  }

  lemma {:induction false} TableAgreesBelow(table: string, i: nat, v: Sextet)
    requires i <= v && TableAgreesFrom(table, i)
    ensures v < |table| && CharOf(v) == table[v]
    decreases v - i
  {
    if i < v {
      TableAgreesBelow(table, i + 1, v);
    }
  }

  // The table check, unrolled one piece of the alphabet per lemma; checking
  // more than eight characters in one proof exceeds the solver's budget.
  lemma TableAgreesFrom56() ensures TableAgreesFrom(Alphabet, 56) { }
  lemma TableAgreesFrom48() ensures TableAgreesFrom(Alphabet, 48) { TableAgreesFrom56(); }
  lemma TableAgreesFrom40() ensures TableAgreesFrom(Alphabet, 40) { TableAgreesFrom48(); }
  lemma TableAgreesFrom32() ensures TableAgreesFrom(Alphabet, 32) { TableAgreesFrom40(); }
  lemma TableAgreesFrom24() ensures TableAgreesFrom(Alphabet, 24) { TableAgreesFrom32(); }
  lemma TableAgreesFrom16() ensures TableAgreesFrom(Alphabet, 16) { TableAgreesFrom24(); }
  lemma TableAgreesFrom8() ensures TableAgreesFrom(Alphabet, 8) { TableAgreesFrom16(); }
  lemma TableAgreesFrom0() ensures TableAgreesFrom(Alphabet, 0) { TableAgreesFrom8(); }

  /** The arithmetic character table agrees with the alphabet as written in the RFC. */
  lemma CharOfIsAlphabet()
    ensures |Alphabet| == 64
    ensures forall v: Sextet :: CharOf(v) == Alphabet[v]
  {
    TableAgreesFrom0();
    forall v: Sextet
      ensures CharOf(v) == Alphabet[v]
    {
      TableAgreesBelow(Alphabet, 0, v);
    }
  }

  // ---------------------------------------------------------------------------
  // Padding: `val += "=" * (-len(val) % 4)`
  // ---------------------------------------------------------------------------

  /**
   * The number of `=` characters appended to a string of length n. Python's
   * `-n % 4` takes the sign of the divisor, as Dafny's `%` does for a
   * positive divisor, so the expression carries over unchanged.
   */
  function PadLength(n: nat): (k: nat)
    ensures k <= 3
    ensures (n + k) % 4 == 0
    ensures k == (4 - n % 4) % 4
  {
    (-(n as int)) % 4
  }

  /** Only a length 1 more than a multiple of 4 needs three `=` characters. */
  lemma PadLengthThree(n: nat)
    ensures PadLength(n) == 3 <==> n % 4 == 1
  {
  }

  /** k copies of the padding character. */
  function Pads(k: nat): (p: string)
    ensures |p| == k && forall i :: 0 <= i < k ==> p[i] == PadChar
  {
    if k == 0 then "" else [PadChar] + Pads(k - 1)
  }

  /** The padded string that the source hands to the decoder. */
  function Pad(s: string): (r: string)
    ensures |r| % 4 == 0
    ensures |s| <= |r| <= |s| + 3
    ensures r[..|s|] == s
    ensures forall i :: |s| <= i < |r| ==> r[i] == PadChar
    ensures |s| % 4 == 0 ==> r == s
  {
    s + Pads(PadLength(|s|))
  }

  // ---------------------------------------------------------------------------
  // Quanta: four sextets <-> three bytes (section 4 of RFC 4648)
  // ---------------------------------------------------------------------------

  /** The 24-bit group of four sextets, split into three bytes. */
  function DecodeQuantum(a: Sextet, b: Sextet, c: Sextet, d: Sextet): (r: seq<Byte>)
    ensures |r| == 3
  {
    var n := a * 0x40000 + b * 0x1000 + c * 0x40 + d;
    [n / 0x10000, (n / 0x100) % 0x100, n % 0x100]
  }

  /** The 24-bit group of three bytes, split into four sextets. */
  function EncodeQuantum(x: Byte, y: Byte, z: Byte): (r: seq<Sextet>)
    ensures |r| == 4
  {
    var n := x * 0x10000 + y * 0x100 + z;
    [n / 0x40000, (n / 0x1000) % 0x40, (n / 0x40) % 0x40, n % 0x40]
  }

  /** A 24-bit value is the sum of its four sextets, each in place. */
  lemma SextetsRecombine(n: int)
    requires 0 <= n < 0x1000000
    ensures (n / 0x40000) * 0x40000 + ((n / 0x1000) % 0x40) * 0x1000
            + ((n / 0x40) % 0x40) * 0x40 + n % 0x40 == n
  {
    assert (n / 0x40) / 0x40 == n / 0x1000;
    assert (n / 0x1000) / 0x40 == n / 0x40000;
    assert n == (n / 0x40) * 0x40 + n % 0x40;
    assert n / 0x40 == (n / 0x1000) * 0x40 + (n / 0x40) % 0x40;
    assert n / 0x1000 == (n / 0x40000) * 0x40 + (n / 0x1000) % 0x40;
  }

  /** A 24-bit value built from three bytes splits back into them. */
  lemma BytesSplit(x: Byte, y: Byte, z: Byte)
    ensures var n := x * 0x10000 + y * 0x100 + z;
            n / 0x10000 == x && (n / 0x100) % 0x100 == y && n % 0x100 == z
  {
    var n := x * 0x10000 + y * 0x100 + z;
    assert n / 0x100 == x * 0x100 + y;
  }

  /** Three bytes survive a trip through four sextets. */
  lemma QuantumRoundTrip(x: Byte, y: Byte, z: Byte)
    ensures var s := EncodeQuantum(x, y, z); DecodeQuantum(s[0], s[1], s[2], s[3]) == [x, y, z]
  {
    var n := x * 0x10000 + y * 0x100 + z;
    SextetsRecombine(n);
    BytesSplit(x, y, z);
  }

  /** The sextets that encode a short final group end in zero bits. */
  lemma QuantumTailZero(x: Byte, y: Byte)
    ensures EncodeQuantum(x, y, 0)[3] == 0
    ensures EncodeQuantum(x, 0, 0)[2] == 0 && EncodeQuantum(x, 0, 0)[3] == 0
  {
    MultipleOf64(x * 0x400 + y * 4);
    MultipleOf64(x * 0x10);
    MultipleOf64(x * 0x400);
  }

  /** A multiple of 64 has no remainder and divides back exactly. */
  lemma MultipleOf64(k: int)
    ensures (k * 0x40) % 0x40 == 0 && (k * 0x40) / 0x40 == k
  {
  }

  // ---------------------------------------------------------------------------
  // Unpadded encoding and decoding (the form a JSON Web Key carries)
  // ---------------------------------------------------------------------------

  function Chars(q: seq<Sextet>): (s: string)
    ensures |s| == |q| && IsBase64Url(s)
    ensures forall i :: 0 <= i < |q| ==> SextetOf(s[i]) == q[i]
  {
    if |q| == 0 then "" else [CharOf(q[0])] + Chars(q[1..])
  }

  /** The number of characters in the unpadded encoding of n bytes. */
  function EncodedLength(n: nat): nat {
    4 * (n / 3) + (if n % 3 == 0 then 0 else n % 3 + 1)
  }

  /** The number of bytes an unpadded string of n characters decodes to. */
  function DecodedLength(n: nat): nat {
    3 * (n / 4) + (if n % 4 == 0 then 0 else n % 4 - 1)
  }

  /**
   * The base64url encoding of a byte string without padding (section 2 of
   * RFC 7518 and appendix C of RFC 7515): a final group of one byte gives two
   * characters, one of two bytes gives three.
   */
  function EncodeUnpadded(b: seq<Byte>): (s: string)
    ensures IsBase64Url(s)
    ensures |s| == EncodedLength(|b|)
    ensures |s| % 4 != 1
  {
    if |b| == 0 then ""
    else if |b| == 1 then Chars(EncodeQuantum(b[0], 0, 0)[..2])
    else if |b| == 2 then Chars(EncodeQuantum(b[0], b[1], 0)[..3])
    else Chars(EncodeQuantum(b[0], b[1], b[2])) + EncodeUnpadded(b[3..])
  }

  /**
   * Decoding of an unpadded string whose length is not 1 more than a multiple
   * of 4. The low bits of a short final group are dropped whatever they are,
   * as Python's decoder does.
   */
  function DecodeUnpadded(s: string): (b: seq<Byte>)
    requires IsBase64Url(s) && |s| % 4 != 1
    ensures |b| == DecodedLength(|s|)
  {
    if |s| == 0 then []
    else if |s| == 2 then DecodeQuantum(SextetOf(s[0]), SextetOf(s[1]), 0, 0)[..1]
    else if |s| == 3 then DecodeQuantum(SextetOf(s[0]), SextetOf(s[1]), SextetOf(s[2]), 0)[..2]
    else DecodeQuantum(SextetOf(s[0]), SextetOf(s[1]), SextetOf(s[2]), SextetOf(s[3]))
         + DecodeUnpadded(s[4..])
  }

  /** Decoding undoes unpadded encoding. */
  lemma {:induction false} UnpaddedRoundTrip(b: seq<Byte>)
    ensures DecodeUnpadded(EncodeUnpadded(b)) == b
  {
    var s := EncodeUnpadded(b);
    if |b| == 1 {
      QuantumRoundTrip(b[0], 0, 0);
      QuantumTailZero(b[0], 0);
    } else if |b| == 2 {
      QuantumRoundTrip(b[0], b[1], 0);
      QuantumTailZero(b[0], b[1]);
    } else if |b| >= 3 {
      QuantumRoundTrip(b[0], b[1], b[2]);
      assert s[4..] == EncodeUnpadded(b[3..]);
      UnpaddedRoundTrip(b[3..]);
      assert b == b[..3] + b[3..];
    }
  }

  // ---------------------------------------------------------------------------
  // Decoding a padded string
  // ---------------------------------------------------------------------------

  /** The number of `=` characters at the end of a string. */
  function TrailingPads(p: string): (k: nat)
    ensures k <= |p|
    ensures forall i :: |p| - k <= i < |p| ==> p[i] == PadChar
    ensures k < |p| ==> p[|p| - k - 1] != PadChar
  {
    if |p| > 0 && p[|p| - 1] == PadChar then 1 + TrailingPads(p[..|p| - 1]) else 0
  }

  /**
   * The padded strings this decoder accepts: a multiple of 4 characters, of
   * which at most two trailing ones are `=` and all others are base64url
   * characters. Every string Pad makes from base64url text of a decodable
   * length has this form. Python's lenient decoder also accepts some other
   * strings, such as ones with surplus `=`; those are outside this model.
   */
  predicate WellPadded(p: string) {
    var k := TrailingPads(p);
    && |p| % 4 == 0
    && k <= 2
    && IsBase64Url(p[..|p| - k])
  }

  /**
   * `base64.urlsafe_b64decode` on the strings Pad makes from base64url text:
   * each group of four characters gives three bytes, less one byte per
   * trailing `=`.
   */
  function DecodePadded(p: string): (r: Option<seq<Byte>>)
    ensures r.Some? <==> WellPadded(p)
    ensures r.Some? ==> |r.value| == 3 * (|p| / 4) - TrailingPads(p)
  {
    if WellPadded(p) then
      var k := TrailingPads(p);
      Some(DecodeUnpadded(p[..|p| - k]))
    else None
  }

  /** Padding a base64url string adds exactly the trailing `=` characters. */
  lemma {:induction false} TrailingPadsAppend(s: string, k: nat)
    requires IsBase64Url(s)
    ensures TrailingPads(s + Pads(k)) == k
  {
    if k == 0 {
      assert s + Pads(k) == s;
      if |s| > 0 {
        assert IsAlphabetChar(s[|s| - 1]);
      }
    } else {
      var p := s + Pads(k);
      assert p[..|p| - 1] == s + Pads(k - 1);
      TrailingPadsAppend(s, k - 1);
    }
  }

  lemma PadTrailing(s: string)
    requires IsBase64Url(s)
    ensures TrailingPads(Pad(s)) == PadLength(|s|)
    ensures Pad(s)[..|Pad(s)| - PadLength(|s|)] == s
  {
    TrailingPadsAppend(s, PadLength(|s|));
  }

  /**
   * The padded form of a base64url string decodes exactly when its length is
   * not 1 more than a multiple of 4, and then to the unpadded decoding.
   */
  lemma DecodePaddedOfPad(s: string)
    requires IsBase64Url(s)
    ensures DecodePadded(Pad(s)).Some? <==> |s| % 4 != 1
    ensures |s| % 4 != 1 ==> DecodePadded(Pad(s)) == Some(DecodeUnpadded(s))
  {
    var p := Pad(s);
    var k := PadLength(|s|);
    PadTrailing(s);
    assert IsBase64Url(p[..|p| - k]);
    PadLengthThree(|s|);
  }

  /** Padding then decoding the unpadded encoding of any byte string yields it back. */
  lemma PadDecodeRoundTrip(b: seq<Byte>)
    ensures DecodePadded(Pad(EncodeUnpadded(b))) == Some(b)
  {
    DecodePaddedOfPad(EncodeUnpadded(b));
    UnpaddedRoundTrip(b);
  }
}

=== FILE: bytes.dfy ===
/**
 * Unsigned big-endian integers, as read by Python's `int.from_bytes(b, "big")`:
 * the value of a byte string is the sum of B[i] * 256^(|B| - 1 - i).
 */
module Bytes {

  type Byte = x: int | 0 <= x < 256

  /** 256 raised to the power k. */
  function Pow256(k: nat): (r: nat)
    ensures r >= 1
  {
    if k == 0 then 1 else 256 * Pow256(k - 1)
  }

  /**
   * The big-endian value of a byte string, read one byte at a time from the
   * most significant end (Horner's rule). The empty string is 0, and every
   * value fits in as many bytes as it was read from.
   */
  function FromBytesBig(b: seq<Byte>): (v: nat)
    ensures v < Pow256(|b|)
  {
    if |b| == 0 then 0 else FromBytesBig(b[..|b| - 1]) * 256 + b[|b| - 1]
  }

  /** The positional definition: byte i carries weight 256^(|b| - 1 - i). */
  ghost function WeightedSum(b: seq<Byte>): nat
  {
    if |b| == 0 then 0 else b[0] * Pow256(|b| - 1) + WeightedSum(b[1..])
  }

  /** Appending a byte shifts the positional sum up by one byte. */
  lemma {:induction false} WeightedSumSnoc(b: seq<Byte>, x: Byte)
    ensures WeightedSum(b + [x]) == WeightedSum(b) * 256 + x
  {
    if |b| == 0 {
      assert b + [x] == [x];
    } else {
      assert (b + [x])[1..] == b[1..] + [x];
      WeightedSumSnoc(b[1..], x);
      calc {
        WeightedSum(b + [x]);
        b[0] * Pow256(|b|) + WeightedSum(b[1..] + [x]);
        b[0] * (256 * Pow256(|b| - 1)) + WeightedSum(b[1..]) * 256 + x;
        { assert b[0] * (256 * Pow256(|b| - 1)) == (b[0] * Pow256(|b| - 1)) * 256; }
        (b[0] * Pow256(|b| - 1) + WeightedSum(b[1..])) * 256 + x;
      }
    }
  }

  /** Horner's rule computes exactly the positional sum. */
  lemma {:induction false} FromBytesBigIsWeightedSum(b: seq<Byte>)
    ensures FromBytesBig(b) == WeightedSum(b)
  {
    if |b| > 0 {
      var init := b[..|b| - 1];
      assert b == init + [b[|b| - 1]];
      FromBytesBigIsWeightedSum(init);
      WeightedSumSnoc(init, b[|b| - 1]);
    }
  }

  /** A leading zero byte does not change the value. */
  lemma LeadingZeroIgnored(b: seq<Byte>)
    ensures FromBytesBig([0] + b) == FromBytesBig(b)
  {
    FromBytesBigIsWeightedSum([0] + b);
    assert ([0] + b)[1..] == b;
    FromBytesBigIsWeightedSum(b);
  }

  /** k zero bytes. */
  function Zeros(k: nat): (z: seq<Byte>)
    ensures |z| == k && forall i :: 0 <= i < k ==> z[i] == 0
  {
    if k == 0 then [] else [0] + Zeros(k - 1)
  }

  /** Any number of leading zero bytes leave the value unchanged. */
  lemma {:induction false} LeadingZerosIgnored(k: nat, b: seq<Byte>)
    ensures FromBytesBig(Zeros(k) + b) == FromBytesBig(b)
  {
    if k > 0 {
      var rest := Zeros(k - 1) + b;
      assert Zeros(k) + b == [0] + rest;
      LeadingZeroIgnored(rest);
      LeadingZerosIgnored(k - 1, b);
    } else {
      assert Zeros(k) + b == b;
    }
  }

  /** The most significant byte alone bounds the value from below. */
  lemma LeadingByteBound(b: seq<Byte>)
    requires |b| > 0
    ensures FromBytesBig(b) >= b[0] * Pow256(|b| - 1)
  {
    FromBytesBigIsWeightedSum(b);
  }

  /**
   * The inverse direction, Python's `k.to_bytes(len, "big")`: the `len`-byte
   * big-endian form of a value that fits in `len` bytes.
   */
  function ToBytesBig(v: nat, len: nat): (b: seq<Byte>)
    requires v < Pow256(len)
    ensures |b| == len
  {
    if len == 0 then [] else ToBytesBig(v / 256, len - 1) + [v % 256]
  }

  /** Reading back the big-endian form of a value gives the value. */
  lemma {:induction false} FromToBytesBig(v: nat, len: nat)
    requires v < Pow256(len)
    ensures FromBytesBig(ToBytesBig(v, len)) == v
  {
    if len > 0 {
      var b := ToBytesBig(v, len);
      assert b[..len - 1] == ToBytesBig(v / 256, len - 1);
      FromToBytesBig(v / 256, len - 1);
    }
  }

  /** Writing out the value of a byte string at its own length gives the string back. */
  lemma {:induction false} ToFromBytesBig(b: seq<Byte>)
    ensures ToBytesBig(FromBytesBig(b), |b|) == b
  {
    if |b| > 0 {
      var init := b[..|b| - 1];
      ToFromBytesBig(init);
      assert b == init + [b[|b| - 1]];
    }
  }
}

=== FILE: calendar_sync.dfy ===
/**
 * The pure part of the calendar sync script: the request body built for
 * each event, the number of events the calendar accepted, and the tally of
 * events per category. The OAuth flow and the Calendar API call are
 * outside; whether each insert succeeded is an input.
 */
module CalendarSync {

  /** One entry of the script's event list. */
  datatype EventData = EventData(
    summary: string,
    description: string,
    start: string,
    end: string,
    colorId: string,
    category: string)

  /** An all-day `start` or `end` member: a date and a time zone. */
  datatype EventTime = EventTime(date: string, timeZone: string)

  /** One reminder override: its `method` and how many minutes ahead. */
  datatype ReminderOverride = ReminderOverride(kind: string, minutes: int)

  datatype Reminders = Reminders(useDefault: bool, overrides: seq<ReminderOverride>)

  /** The body sent to the calendar's insert call. */
  datatype EventBody = EventBody(
    summary: string,
    description: string,
    start: EventTime,
    end: EventTime,
    colorId: string,
    reminders: Reminders)

  const TimeZone: string := "Asia/Seoul"

  /** An e-mail one day ahead, then a pop-up one hour ahead. */
  const ReminderOverrides: seq<ReminderOverride> :=
    [ReminderOverride("email", 24 * 60), ReminderOverride("popup", 60)]

  /**
   * `create_event`'s body: summary, description and colour copied as they
   * are, start and end as all-day dates in Seoul time, default reminders off
   * in favour of the two overrides. The category is not sent.
   */
  function CreateEventBody(e: EventData): (body: EventBody)
    ensures body.start.timeZone == TimeZone && body.end.timeZone == TimeZone
    ensures !body.reminders.useDefault
    ensures |body.reminders.overrides| == 2
    ensures body.reminders.overrides[0] == ReminderOverride("email", 1440)
    ensures body.reminders.overrides[1] == ReminderOverride("popup", 60)
  {
    EventBody(
      e.summary,
      e.description,
      EventTime(e.start, TimeZone),
      EventTime(e.end, TimeZone),
      e.colorId,
      Reminders(false, ReminderOverrides))
  }

  /** Reading an event back out of its body, given the category the body leaves out. */
  function EventDataOf(body: EventBody, category: string): EventData {
    EventData(body.summary, body.description, body.start.date, body.end.date, body.colorId, category)
  }

  /** Everything but the category survives into the body verbatim. */
  lemma BodyRoundTrip(e: EventData)
    ensures EventDataOf(CreateEventBody(e), e.category) == e
  {
  }

  /** Two events give the same body exactly when they differ at most in category. */
  lemma BodyIgnoresOnlyCategory(a: EventData, b: EventData)
    ensures CreateEventBody(a) == CreateEventBody(b) <==> a.(category := b.category) == b
  {
    if CreateEventBody(a) == CreateEventBody(b) {
      BodyRoundTrip(a);
      BodyRoundTrip(b);
    }
  }

  // ---------------------------------------------------------------------------
  // Success count
  // ---------------------------------------------------------------------------

  /** The number of true entries. */
  function CountTrue(bs: seq<bool>): (n: nat)
    ensures n <= |bs|
  {
    if |bs| == 0 then 0 else CountTrue(bs[..|bs| - 1]) + (if bs[|bs| - 1] then 1 else 0)
  }

  /**
   * The loop of `main`: build and send each event's body in order, counting
   * the inserts that succeed (`accepted[i]` says whether the i-th did).
   */
  method SendAll(events: seq<EventData>, accepted: seq<bool>) returns (sent: seq<EventBody>, successCount: nat)
    requires |accepted| == |events|
    ensures |sent| == |events|
    ensures forall i :: 0 <= i < |events| ==> sent[i] == CreateEventBody(events[i])
    ensures successCount == CountTrue(accepted)
    ensures successCount <= |events|
  {
    sent := [];
    successCount := 0;
    var i := 0;
    while i < |events|
      invariant 0 <= i <= |events|
      invariant |sent| == i
      invariant forall j :: 0 <= j < i ==> sent[j] == CreateEventBody(events[j])
      invariant successCount == CountTrue(accepted[..i])
    {
      sent := sent + [CreateEventBody(events[i])];
      if accepted[i] {
        successCount := successCount + 1;
      }
      assert accepted[..i + 1][..i] == accepted[..i];
      i := i + 1;
    }
    assert accepted[..i] == accepted;
  }

  // ---------------------------------------------------------------------------
  // Category tally
  // ---------------------------------------------------------------------------

  /** One entry of the `categories` dictionary. */
  datatype CategoryCount = CategoryCount(category: string, count: nat)

  /** No category appears twice (they are dictionary keys). */
  predicate DistinctCategories(t: seq<CategoryCount>) {
    forall i, j :: 0 <= i < j < |t| ==> t[i].category != t[j].category
  }

  /** Every count is at least one. */
  predicate AllPositive(t: seq<CategoryCount>) {
    forall i :: 0 <= i < |t| ==> t[i].count >= 1
  }

  /** `categories.get(c, 0)`. */
  function Lookup(t: seq<CategoryCount>, c: string): nat {
    if |t| == 0 then 0
    else if t[0].category == c then t[0].count
    else Lookup(t[1..], c)
  }

  /** The sum of the counts. */
  function Total(t: seq<CategoryCount>): nat {
    if |t| == 0 then 0 else t[0].count + Total(t[1..])
  }

  /** The categories present. */
  function Categories(t: seq<CategoryCount>): set<string> {
    set x | x in t :: x.category
  }

  /** How each tally measure reads an entry put in front of a tally. */
  lemma Cons(x: CategoryCount, rest: seq<CategoryCount>)
    ensures forall d :: Lookup([x] + rest, d) == if x.category == d then x.count else Lookup(rest, d)
    ensures Total([x] + rest) == x.count + Total(rest)
    ensures Categories([x] + rest) == {x.category} + Categories(rest)
    ensures DistinctCategories([x] + rest) <==> x.category !in Categories(rest) && DistinctCategories(rest)
    ensures AllPositive([x] + rest) <==> x.count >= 1 && AllPositive(rest)
  {
    var r := [x] + rest;
    assert r[1..] == rest;
    if x.category !in Categories(rest) && DistinctCategories(rest) {
      forall i, j | 0 <= i < j < |r|
        ensures r[i].category != r[j].category
      {
        if i == 0 {
          assert r[j] in rest;
        } else {
          assert r[i] == rest[i - 1] && r[j] == rest[j - 1];
        }
      }
    }
    if DistinctCategories(r) {
      forall y | y in rest
        ensures y.category != x.category
      {
        var j :| 0 <= j < |rest| && rest[j] == y;
        assert r[j + 1] == y;
      }
    }
    if x.count >= 1 && AllPositive(rest) {
      forall i | 0 <= i < |r|
        ensures r[i].count >= 1
      {
        if i > 0 {
          assert r[i] == rest[i - 1];
        }
      }
    }
  }

  /**
   * `categories[c] = categories.get(c, 0) + 1`: an existing key keeps its
   * place and goes up by one; a new key is appended with count 1.
   */
  function Bump(t: seq<CategoryCount>, c: string): (r: seq<CategoryCount>)
    requires DistinctCategories(t)
    ensures DistinctCategories(r)
    decreases |t|, 1
  {
    if |t| == 0 then
      Cons(CategoryCount(c, 1), []);
      [CategoryCount(c, 1)]
    else
      assert t == [t[0]] + t[1..];
      Cons(t[0], t[1..]);
      if t[0].category == c then
        Cons(t[0].(count := t[0].count + 1), t[1..]);
        [t[0].(count := t[0].count + 1)] + t[1..]
      else
        var rest := Bump(t[1..], c);
        BumpCategories(t[1..], c);
        Cons(t[0], rest);
        [t[0]] + rest
  }

  /** `Bump` adds one to the bumped key's count and to nothing else. */
  lemma {:induction false} BumpCounts(t: seq<CategoryCount>, c: string)
    requires DistinctCategories(t)
    ensures AllPositive(t) ==> AllPositive(Bump(t, c))
    ensures Lookup(Bump(t, c), c) == Lookup(t, c) + 1
    ensures forall d :: d != c ==> Lookup(Bump(t, c), d) == Lookup(t, d)
    ensures Total(Bump(t, c)) == Total(t) + 1
  {
    if |t| == 0 {
      Cons(CategoryCount(c, 1), []);
    } else {
      assert t == [t[0]] + t[1..];
      Cons(t[0], t[1..]);
      if t[0].category == c {
        Cons(t[0].(count := t[0].count + 1), t[1..]);
      } else {
        BumpCounts(t[1..], c);
        Cons(t[0], Bump(t[1..], c));
      }
    }
  }

  /** The keys after `Bump` are the keys before plus the bumped one. */
  lemma {:induction false} BumpCategories(t: seq<CategoryCount>, c: string)
    requires DistinctCategories(t)
    ensures Categories(Bump(t, c)) == Categories(t) + {c}
    decreases |t|, 2
  {
    if |t| == 0 {
      Cons(CategoryCount(c, 1), []);
    } else {
      assert t == [t[0]] + t[1..];
      Cons(t[0], t[1..]);
      if t[0].category == c {
        Cons(t[0].(count := t[0].count + 1), t[1..]);
      } else {
        BumpCategories(t[1..], c);
        Cons(t[0], Bump(t[1..], c));
      }
    }
  }

  /** The number of the first `k` events that are in the given category. */
  function CountBelow(events: seq<EventData>, k: nat, c: string): nat
    requires k <= |events|
  {
    if k == 0 then 0
    else CountBelow(events, k - 1, c) + (if events[k - 1].category == c then 1 else 0)
  }

  /** The number of events in the given category. */
  function Occurrences(events: seq<EventData>, c: string): nat {
    CountBelow(events, |events|, c)
  }

  /** The dictionary after the loop has seen the first `k` events. */
  function TallyBelow(events: seq<EventData>, k: nat): (r: seq<CategoryCount>)
    requires k <= |events|
    ensures DistinctCategories(r)
  {
    if k == 0 then [] else Bump(TallyBelow(events, k - 1), events[k - 1].category)
  }

  /** After `k` events every count is positive, they sum to `k`, and each key counts its events. */
  lemma {:induction false} TallyBelowCounts(events: seq<EventData>, k: nat)
    requires k <= |events|
    ensures AllPositive(TallyBelow(events, k))
    ensures Total(TallyBelow(events, k)) == k
    ensures forall c :: Lookup(TallyBelow(events, k), c) == CountBelow(events, k, c)
  {
    if k > 0 {
      TallyBelowCounts(events, k - 1);
      BumpCounts(TallyBelow(events, k - 1), events[k - 1].category);
    }
  }

  /**
   * The statistics loop of `main`, in event order: one entry per category
   * that occurs, keyed in order of first occurrence, counting its events.
   */
  function Tally(events: seq<EventData>): (r: seq<CategoryCount>)
    ensures DistinctCategories(r)
    ensures AllPositive(r)
    ensures Total(r) == |events|
    ensures forall c :: Lookup(r, c) == Occurrences(events, c)
  {
    TallyBelowCounts(events, |events|);
    TallyBelow(events, |events|)
  }

  /** The keys after the first `k` events are the categories of those events. */
  lemma {:induction false} TallyBelowCategories(events: seq<EventData>, k: nat)
    requires k <= |events|
    ensures Categories(TallyBelow(events, k)) == set i | 0 <= i < k :: events[i].category
  {
    if k > 0 {
      TallyBelowCategories(events, k - 1);
      BumpCategories(TallyBelow(events, k - 1), events[k - 1].category);
      SeenCategoriesStep(events, k);
    }
  }

  /** The categories among the first `k` events, one event at a time. */
  lemma SeenCategoriesStep(events: seq<EventData>, k: nat)
    requires 0 < k <= |events|
    ensures (set i | 0 <= i < k :: events[i].category)
         == (set i | 0 <= i < k - 1 :: events[i].category) + {events[k - 1].category}
  {
  }

  /** The tally's keys are exactly the categories of the events. */
  lemma TallyCategories(events: seq<EventData>)
    ensures Categories(Tally(events)) == set e | e in events :: e.category
  {
    TallyBelowCategories(events, |events|);
    assert (set i | 0 <= i < |events| :: events[i].category) == set e | e in events :: e.category;
  }

  /** The statistics loop of `main`, written as the loop it is. */
  method CountCategories(events: seq<EventData>) returns (categories: seq<CategoryCount>)
    ensures DistinctCategories(categories) && AllPositive(categories)
    ensures Total(categories) == |events|
    ensures forall c :: Lookup(categories, c) == Occurrences(events, c)
  {
    categories := [];
    var i := 0;
    while i < |events|
      invariant 0 <= i <= |events|
      invariant categories == TallyBelow(events, i)
    {
      categories := Bump(categories, events[i].category);
      i := i + 1;
    }
    TallyBelowCounts(events, i);
  }

  /** A category not yet seen is appended with count 1. */
  lemma {:induction false} BumpNew(t: seq<CategoryCount>, c: string)
    requires DistinctCategories(t) && c !in Categories(t)
    ensures Bump(t, c) == t + [CategoryCount(c, 1)]
  {
    if |t| > 0 {
      assert t == [t[0]] + t[1..];
      Cons(t[0], t[1..]);
      BumpNew(t[1..], c);
      assert [t[0]] + (t[1..] + [CategoryCount(c, 1)]) == t + [CategoryCount(c, 1)];
    }
  }

  /** Bumping the category of the last entry raises that entry only. */
  lemma {:induction false} BumpLast(prefix: seq<CategoryCount>, c: string, n: nat)
    requires DistinctCategories(prefix + [CategoryCount(c, n)])
    ensures Bump(prefix + [CategoryCount(c, n)], c) == prefix + [CategoryCount(c, n + 1)]
  {
    var t := prefix + [CategoryCount(c, n)];
    if |prefix| == 0 {
      assert t == [CategoryCount(c, n)];
      assert t[1..] == [];
    } else {
      assert t == [prefix[0]] + (prefix[1..] + [CategoryCount(c, n)]);
      Cons(prefix[0], prefix[1..] + [CategoryCount(c, n)]);
      assert c in Categories(prefix[1..] + [CategoryCount(c, n)]) by {
        assert CategoryCount(c, n) in prefix[1..] + [CategoryCount(c, n)];
      }
      BumpLast(prefix[1..], c, n);
      assert [prefix[0]] + (prefix[1..] + [CategoryCount(c, n + 1)]) == prefix + [CategoryCount(c, n + 1)];
    }
  }

  /** A run of events of the category last tallied raises its count by the run's length. */
  lemma {:induction false} TallyRun(events: seq<EventData>, k: nat, m: nat, prefix: seq<CategoryCount>, c: string, n: nat)
    requires k <= m <= |events| && m - k <= n
    requires TallyBelow(events, k) == prefix + [CategoryCount(c, n - (m - k))]
    requires forall i :: k <= i < m ==> events[i].category == c
    ensures TallyBelow(events, m) == prefix + [CategoryCount(c, n)]
    decreases m - k
  {
    if k < m {
      BumpLast(prefix, c, n - (m - k));
      TallyRun(events, k + 1, m, prefix, c, n);
    }
  }

  /** A run of events of a category not yet seen appends it, counting the run. */
  lemma TallyNewRun(events: seq<EventData>, k: nat, m: nat, prefix: seq<CategoryCount>, c: string)
    requires k < m <= |events|
    requires TallyBelow(events, k) == prefix && c !in Categories(prefix)
    requires forall i :: k <= i < m ==> events[i].category == c
    ensures TallyBelow(events, m) == prefix + [CategoryCount(c, m - k)]
  {
    BumpNew(prefix, c);
    TallyRun(events, k + 1, m, prefix, c, m - k);
  }
}

=== FILE: civil_date.dfy ===
/**
 * Calendar dates as Python's `datetime.date` holds them: proleptic Gregorian,
 * years 1 to 9999. A date's day number counts days from 0001-01-01, so that
 * "14 days later" is plain integer addition on day numbers.
 */
module CivilDate {
  import opened Wrappers

  const MinYear: int := 1
  const MaxYear: int := 9999

  datatype Date = Date(year: int, month: int, day: int)

  /** The last representable date; adding a day to it overflows. */
  const LastDate: Date := Date(MaxYear, 12, 31)

  predicate IsLeapYear(y: int) {
    y % 4 == 0 && (y % 100 != 0 || y % 400 == 0)
  }

  function DaysInMonth(y: int, m: int): (n: int)
    requires 1 <= m <= 12
    ensures 28 <= n <= 31
  {
    if m == 2 then (if IsLeapYear(y) then 29 else 28)
    else if m == 4 || m == 6 || m == 9 || m == 11 then 30
    else 31
  }

  function DaysInYear(y: int): int {
    if IsLeapYear(y) then 366 else 365
  }

  predicate Valid(d: Date) {
    && MinYear <= d.year <= MaxYear
    && 1 <= d.month <= 12
    && 1 <= d.day <= DaysInMonth(d.year, d.month)
  }

  /** Days in the years before year y, counting from year 1. */
  function DaysBeforeYear(y: int): nat
    requires y >= MinYear
    decreases y
  {
    if y == MinYear then 0 else DaysBeforeYear(y - 1) + DaysInYear(y - 1)
  }

  /** Days in the months of year y before month m. */
  function DaysBeforeMonth(y: int, m: int): nat
    requires 1 <= m <= 12
    decreases m
  {
    if m == 1 then 0 else DaysBeforeMonth(y, m - 1) + DaysInMonth(y, m - 1)
  }

  /** The twelve months fill the year exactly. */
  lemma MonthsFillYear(y: int)
    ensures DaysBeforeMonth(y, 12) + DaysInMonth(y, 12) == DaysInYear(y)
  {
  }

  /** Days from 0001-01-01 (Python's `toordinal() - 1`). */
  function DayNumber(d: Date): nat
    requires Valid(d)
  {
    DaysBeforeYear(d.year) + DaysBeforeMonth(d.year, d.month) + d.day - 1
  }

  /** Within one month, day numbers differ by the difference of the days. */
  lemma SameMonthDayNumber(a: Date, b: Date)
    requires Valid(a) && Valid(b) && a.year == b.year && a.month == b.month
    ensures DayNumber(b) == DayNumber(a) + (b.day - a.day)
  {
  }

  /** The following day; none after the last representable date. */
  function NextDay(d: Date): (r: Option<Date>)
    requires Valid(d)
    ensures r.None? <==> d == LastDate
    ensures r.Some? ==> Valid(r.value) && DayNumber(r.value) == DayNumber(d) + 1
  {
    if d.day < DaysInMonth(d.year, d.month) then Some(Date(d.year, d.month, d.day + 1))
    else if d.month < 12 then Some(Date(d.year, d.month + 1, 1))
    else if d.year < MaxYear then
      MonthsFillYear(d.year);
      Some(Date(d.year + 1, 1, 1))
    else None
  }

  /**
   * `date + timedelta(days=k)`: the date k days later, or none when that
   * passes 9999-12-31 (Python raises `OverflowError`).
   */
  function AddDays(d: Date, k: nat): (r: Option<Date>)
    requires Valid(d)
    ensures r.Some? <==> DayNumber(d) + k <= DayNumber(LastDate)
    ensures r.Some? ==> Valid(r.value) && DayNumber(r.value) == DayNumber(d) + k
    decreases k
  {
    if k == 0 then
      DayNumberAtMostLast(d);
      Some(d)
    else
      match NextDay(d)
      case None => None
      case Some(next) => AddDays(next, k - 1)
  }

  /** Years start further along the count the later they are. */
  lemma {:induction false} DaysBeforeYearMonotone(y: int, y': int)
    requires MinYear <= y <= y'
    ensures DaysBeforeYear(y) + (y' - y) * 365 <= DaysBeforeYear(y')
    decreases y' - y
  {
    if y < y' {
      DaysBeforeYearMonotone(y, y' - 1);
    }
  }

  /** Months start further along the year the later they are. */
  lemma {:induction false} DaysBeforeMonthMonotone(y: int, m: int, m': int)
    requires 1 <= m <= m' <= 12
    ensures DaysBeforeMonth(y, m) + (m' - m) * 28 <= DaysBeforeMonth(y, m')
    decreases m' - m
  {
    if m < m' {
      DaysBeforeMonthMonotone(y, m, m' - 1);
    }
  }

  /** Within a valid date, the day falls inside its month, and the month inside its year. */
  lemma DayWithinYear(d: Date)
    requires Valid(d)
    ensures DaysBeforeYear(d.year) <= DayNumber(d) < DaysBeforeYear(d.year) + DaysInYear(d.year)
  {
    MonthsFillYear(d.year);
    if d.month < 12 {
      DaysBeforeMonthMonotone(d.year, d.month + 1, 12);
    }
  }

  /** No valid date lies beyond the last representable one. */
  lemma DayNumberAtMostLast(d: Date)
    requires Valid(d)
    ensures DayNumber(d) <= DayNumber(LastDate)
  {
    DayWithinYear(d);
    LastDayOfYear(MaxYear);
    if d.year < MaxYear {
      DaysBeforeYearMonotone(d.year + 1, MaxYear);
    }
  }

  /** 31 December is the last day of its year. */
  lemma LastDayOfYear(y: int)
    requires MinYear <= y <= MaxYear
    ensures DayNumber(Date(y, 12, 31)) == DaysBeforeYear(y) + DaysInYear(y) - 1
  {
    MonthsFillYear(y);
  }

  /** Dates with equal day numbers lie in the same year. */
  lemma SameDayNumberSameYear(a: Date, b: Date)
    requires Valid(a) && Valid(b)
    requires DayNumber(a) <= DayNumber(b)
    ensures a.year <= b.year
  {
    DayWithinYear(a);
    DayWithinYear(b);
    if b.year < a.year {
      DaysBeforeYearMonotone(b.year + 1, a.year);
    }
  }

  /** Within one year, a later-or-equal day number is in a later-or-equal month. */
  lemma SameDayNumberSameMonth(a: Date, b: Date)
    requires Valid(a) && Valid(b) && a.year == b.year
    requires DayNumber(a) <= DayNumber(b)
    ensures a.month <= b.month
  {
    if b.month < a.month {
      DaysBeforeMonthMonotone(a.year, b.month + 1, a.month);
    }
  }

  /** Distinct valid dates have distinct day numbers, so "k days later" names one date. */
  lemma DayNumberInjective(a: Date, b: Date)
    requires Valid(a) && Valid(b)
    requires DayNumber(a) == DayNumber(b)
    ensures a == b
  {
    SameDayNumberSameYear(a, b);
    SameDayNumberSameYear(b, a);
    SameDayNumberSameMonth(a, b);
    SameDayNumberSameMonth(b, a);
  }
}

=== FILE: eks_schedule.dfy ===
/**
 * The fixed schedule the calendar sync script pushes: sixteen one-day
 * events in three categories, each category with its own colour.
 */
module EksSchedule {
  import opened CalendarSync

  /** The script's `EVENTS` list, in order. */
  const Events: seq<EventData> := [
    EventData("🏗️ EKS 구축 - PRISM STG", "PRISM STG 환경 EKS 클러스터 구축",
              "2026-01-27", "2026-01-27", "9", "구축"),
    EventData("🏗️ EKS 구축 - CMAS STG", "CMAS STG 환경 EKS 클러스터 구축",
              "2026-02-17", "2026-02-17", "9", "구축"),
    EventData("🏗️ EKS 구축 - PRISM PRD", "PRISM PRD 환경 EKS 클러스터 구축",
              "2026-03-04", "2026-03-04", "9", "구축"),
    EventData("🏗️ EKS 구축 - CMAS PRD", "CMAS PRD 환경 EKS 클러스터 구축",
              "2026-03-04", "2026-03-04", "9", "구축"),
    EventData("⬆️ EKS 업그레이드 - SMOA STG", "SMOA STG 환경 EKS 업그레이드 (평일 작업)",
              "2026-02-23", "2026-02-23", "11", "업그레이드"),
    EventData("⬆️ EKS 업그레이드 - ITSM STG", "ITSM STG 환경 EKS 업그레이드 (평일 작업)",
              "2026-02-26", "2026-02-26", "11", "업그레이드"),
    EventData("⬆️ EKS 업그레이드 - AI-APP DEV", "AI-APP DEV 환경 EKS 업그레이드 (평일 작업)",
              "2026-03-02", "2026-03-02", "11", "업그레이드"),
    EventData("⬆️ EKS 업그레이드 - AI-APP STG", "AI-APP STG 환경 EKS 업그레이드 (평일 작업)",
              "2026-03-05", "2026-03-05", "11", "업그레이드"),
    EventData("⬆️ EKS 업그레이드 - SMOA PRD", "SMOA PRD 환경 EKS 업그레이드 (토요일 작업)",
              "2026-03-07", "2026-03-07", "11", "업그레이드"),
    EventData("⬆️ EKS 업그레이드 - ITSM PRD", "ITSM PRD 환경 EKS 업그레이드 (토요일 작업)",
              "2026-03-07", "2026-03-07", "11", "업그레이드"),
    EventData("⬆️ EKS 업그레이드 - AI-APP PRD", "AI-APP PRD 환경 EKS 업그레이드 (토요일 작업)",
              "2026-03-14", "2026-03-14", "11", "업그레이드"),
    EventData("📦 EKS HELM 배포 - DEVPM", "DEVPM 환경 HELM 차트 배포",
              "2026-01-27", "2026-01-27", "10", "HELM배포"),
    EventData("📦 EKS HELM 배포 - PRISM STG", "PRISM STG 환경 HELM 차트 배포",
              "2026-01-27", "2026-01-27", "10", "HELM배포"),
    EventData("📦 EKS HELM 배포 - CMAS STG", "CMAS STG 환경 HELM 차트 배포",
              "2026-02-17", "2026-02-17", "10", "HELM배포"),
    EventData("📦 EKS HELM 배포 - PRISM PRD", "PRISM PRD 환경 HELM 차트 배포",
              "2026-03-10", "2026-03-10", "10", "HELM배포"),
    EventData("📦 EKS HELM 배포 - CMAS PRD", "CMAS PRD 환경 HELM 차트 배포",
              "2026-03-10", "2026-03-10", "10", "HELM배포")
  ]

  /** The colour each category is drawn in: blue, red and green. */
  function ColorOf(category: string): string {
    if category == "구축" then "9"
    else if category == "업그레이드" then "11"
    else if category == "HELM배포" then "10"
    else ""
  }

  /** Every event is a single day, and its colour is its category's colour. */
  lemma EventsAreOneDayAndColoured()
    ensures |Events| == 16
    ensures forall i :: 0 <= i < |Events| ==> Events[i].start == Events[i].end
    ensures forall i :: 0 <= i < |Events| ==> Events[i].colorId == ColorOf(Events[i].category)
  {
  }

  /** The keys of a two-entry tally. */
  lemma CategoriesOfTwo(x: CategoryCount, y: CategoryCount)
    ensures Categories([x, y]) == {x.category, y.category}
  {
    assert [x, y][0] == x && [x, y][1] == y;
  }

  /** Two runs of distinct categories at the start tally to two entries, in run order. */
  lemma TallyTwoRuns(events: seq<EventData>, a: string, b: string, p: nat, q: nat)
    requires 0 < p < q <= |events|
    requires a != b
    requires forall i :: 0 <= i < p ==> events[i].category == a
    requires forall i :: p <= i < q ==> events[i].category == b
    ensures TallyBelow(events, q) == [CategoryCount(a, p), CategoryCount(b, q - p)]
  {
    var tp := [CategoryCount(a, p)];
    TallyNewRun(events, 0, p, [], a);
    assert Categories(tp) == {a};
    TallyNewRun(events, p, q, tp, b);
  }

  /** Three runs of distinct categories tally to three entries, in run order. */
  lemma TallyThreeRuns(events: seq<EventData>, a: string, b: string, c: string, p: nat, q: nat)
    requires 0 < p < q < |events|
    requires a != b && a != c && b != c
    requires forall i :: 0 <= i < p ==> events[i].category == a
    requires forall i :: p <= i < q ==> events[i].category == b
    requires forall i :: q <= i < |events| ==> events[i].category == c
    ensures Tally(events) == [CategoryCount(a, p), CategoryCount(b, q - p), CategoryCount(c, |events| - q)]
  {
    var tq := [CategoryCount(a, p), CategoryCount(b, q - p)];
    TallyTwoRuns(events, a, b, p, q);
    CategoriesOfTwo(CategoryCount(a, p), CategoryCount(b, q - p));
    TallyNewRun(events, q, |events|, tq, c);
  }

  /** Four build events, seven upgrades and five HELM deployments, tallied in that order. */
  lemma EventsTally()
    ensures Tally(Events) == [CategoryCount("구축", 4), CategoryCount("업그레이드", 7), CategoryCount("HELM배포", 5)]
  {
    TallyThreeRuns(Events, "구축", "업그레이드", "HELM배포", 4, 11);
  }
}

=== FILE: jwk.dfy ===
/**
 * The numeric part of converting an RSA JSON Web Key to a public key: the
 * `n` (modulus) and `e` (exponent) members are Base64urlUInt values
 * (section 2 and section 6.3.1 of RFC 7518), turned into integers by
 * padding, base64url-decoding and reading the bytes as a big-endian number.
 */
module JwkToPem {
  import opened Wrappers
  import opened Bytes
  import opened Base64Url

  /**
   * `b64url_to_long`: pad with `=` to a multiple of 4, decode, and read the
   * bytes as an unsigned big-endian integer. A string of length 1 more than a
   * multiple of 4 has no decoding (Python raises `binascii.Error`).
   */
  function B64UrlToLong(val: string): (r: Option<nat>)
    requires IsBase64Url(val)
    ensures r.Some? <==> |val| % 4 != 1
    ensures r.Some? ==> r.value < Pow256(DecodedLength(|val|))
  {
    DecodePaddedOfPad(val);
    match DecodePadded(Pad(val))
    case Some(b) => Some(FromBytesBig(b))
    case None => None
  }

  /** The value of any byte string is recovered from its unpadded base64url form. */
  lemma B64UrlToLongOfEncoding(b: seq<Byte>)
    ensures B64UrlToLong(EncodeUnpadded(b)) == Some(FromBytesBig(b))
  {
    PadDecodeRoundTrip(b);
  }

  /** Any integer that fits in m bytes survives encoding as an m-byte Base64urlUInt. */
  lemma B64UrlToLongRoundTrip(k: nat, m: nat)
    requires k < Pow256(m)
    ensures B64UrlToLong(EncodeUnpadded(ToBytesBig(k, m))) == Some(k)
  {
    B64UrlToLongOfEncoding(ToBytesBig(k, m));
    FromToBytesBig(k, m);
  }

  /** Encoding with leading zero bytes does not change the decoded integer. */
  lemma B64UrlToLongLeadingZeros(z: nat, b: seq<Byte>)
    ensures B64UrlToLong(EncodeUnpadded(Zeros(z) + b)) == B64UrlToLong(EncodeUnpadded(b))
  {
    B64UrlToLongOfEncoding(Zeros(z) + b);
    B64UrlToLongOfEncoding(b);
    LeadingZerosIgnored(z, b);
  }

  /** The exponent member of the key in the source. */
  const SampleExponent: string := "AQAB"

  /** "AQAB" is the three bytes 01 00 01, that is 65537. */
  lemma SampleExponentIs65537()
    ensures DecodePadded(Pad(SampleExponent)) == Some([1, 0, 1])
    ensures B64UrlToLong(SampleExponent) == Some(65537)
  {
    var s := SampleExponent;
    assert Pad(s) == s;
    assert WellPadded(s);
    assert [SextetOf(s[0]), SextetOf(s[1]), SextetOf(s[2]), SextetOf(s[3])] == [0, 16, 0, 1];
    assert DecodeUnpadded(s[4..]) == [];
    assert DecodeUnpadded(s) == [1, 0, 1];
    assert [1, 0, 1][..2] == [1, 0];
    assert [1, 0, 1][..2][..1] == [1];
  }

  // ---------------------------------------------------------------------------
  // The key description
  // ---------------------------------------------------------------------------

  /**
   * A JSON Web Key as the dictionary the script holds: member names to
   * string values (`kty`, `kid`, `use`, `alg`, `n`, `e`, ...).
   */
  type Jwk = map<string, string>

  /** The (e, n) pair handed to `RSAPublicNumbers`. */
  datatype RsaPublicNumbers = RsaPublicNumbers(e: nat, n: nat)

  /** The `n` and `e` members, where present, are base64url strings. */
  predicate NumericMembersWellFormed(jwk: Jwk) {
    && ("n" in jwk ==> IsBase64Url(jwk["n"]))
    && ("e" in jwk ==> IsBase64Url(jwk["e"]))
  }

  /**
   * `n = b64url_to_long(jwk["n"])`, then `e = b64url_to_long(jwk["e"])`.
   * A missing member (KeyError) or an undecodable one gives no numbers.
   */
  function PublicNumbersOf(jwk: Jwk): (r: Option<RsaPublicNumbers>)
    requires NumericMembersWellFormed(jwk)
    ensures r.Some? <==> "n" in jwk && "e" in jwk && |jwk["n"]| % 4 != 1 && |jwk["e"]| % 4 != 1
  {
    if "n" !in jwk then None
    else
      match B64UrlToLong(jwk["n"])
      case None => None
      case Some(n) =>
        if "e" !in jwk then None
        else
          match B64UrlToLong(jwk["e"])
          case None => None
          case Some(e) => Some(RsaPublicNumbers(e, n))
  }

  /**
   * A key whose `n` and `e` members are the unpadded base64url forms of
   * big-endian integers yields exactly those integers.
   */
  lemma PublicNumbersRoundTrip(jwk: Jwk, n: nat, nLen: nat, e: nat, eLen: nat)
    requires n < Pow256(nLen) && e < Pow256(eLen)
    requires "n" in jwk && jwk["n"] == EncodeUnpadded(ToBytesBig(n, nLen))
    requires "e" in jwk && jwk["e"] == EncodeUnpadded(ToBytesBig(e, eLen))
    ensures NumericMembersWellFormed(jwk)
    ensures PublicNumbersOf(jwk) == Some(RsaPublicNumbers(e, n))
  {
    B64UrlToLongRoundTrip(n, nLen);
    B64UrlToLongRoundTrip(e, eLen);
  }

  /** Setting any member other than `n` and `e` (`kty`, `kid`, `use`, `alg`, ...) changes nothing. */
  lemma OtherMembersIgnored(jwk: Jwk, name: string, value: string)
    requires NumericMembersWellFormed(jwk)
    requires name != "n" && name != "e"
    ensures NumericMembersWellFormed(jwk[name := value])
    ensures PublicNumbersOf(jwk[name := value]) == PublicNumbersOf(jwk)
  {
  }

  /** Two keys that agree on `n` and `e` give the same numbers, whatever else they hold. */
  lemma OnlyNumericMembersRead(a: Jwk, b: Jwk)
    requires NumericMembersWellFormed(a) && NumericMembersWellFormed(b)
    requires ("n" in a <==> "n" in b) && ("n" in a ==> a["n"] == b["n"])
    requires ("e" in a <==> "e" in b) && ("e" in a ==> a["e"] == b["e"])
    ensures PublicNumbersOf(a) == PublicNumbersOf(b)
  {
  }

  /** A key carrying the source's exponent "AQAB" has public exponent 65537. */
  lemma SampleKeyExponent(jwk: Jwk)
    requires NumericMembersWellFormed(jwk)
    requires "e" in jwk && jwk["e"] == SampleExponent
    requires "n" in jwk && |jwk["n"]| % 4 != 1
    ensures PublicNumbersOf(jwk).Some? && PublicNumbersOf(jwk).value.e == 65537
  {
    SampleExponentIs65537();
  }
}

=== FILE: library.dfy ===
/**
 * The book-lending web app's `books` table and the data changes its routes
 * make: seeding, add, borrow, return, delete and edit. The table is a map
 * from id to row plus the largest id AUTOINCREMENT has ever handed out;
 * every transition is the effect of one SQL statement on that state.
 */
module Library {
  import opened Wrappers
  import opened CivilDate

  /** A loan runs for this many days (`timedelta(days=14)`). */
  const LoanDays: nat := 14

  datatype Status = Available | Borrowed

  /** The text stored in the `status` column. */
  function StatusText(s: Status): (t: string)
    ensures t == "available" || t == "borrowed"
  {
    match s
    case Available => "available"
    case Borrowed => "borrowed"
  }

  /** One row of `books` (the id is the key in the table). NULL is None. */
  datatype Book = Book(
    title: string,
    author: string,
    imageUrl: Option<string>,
    borrower: Option<string>,
    borrowDate: Option<Date>,
    returnDate: Option<Date>,
    status: Status)

  /** The table and AUTOINCREMENT's high-water mark. */
  datatype Table = Table(rows: map<int, Book>, lastId: nat)

  /** The table as `CREATE TABLE IF NOT EXISTS` first makes it. */
  const EmptyTable: Table := Table(map[], 0)

  /**
   * The loan invariant: an available book carries no borrower and no dates;
   * a borrowed book carries both dates.
   */
  predicate LoanConsistent(b: Book) {
    match b.status
    case Available => b.borrower.None? && b.borrowDate.None? && b.returnDate.None?
    case Borrowed => b.borrowDate.Some? && b.returnDate.Some?
  }

  /** A borrowed book is due back exactly LoanDays after it was lent. */
  predicate LoanTermKept(b: Book) {
    b.status == Borrowed && b.borrowDate.Some? && b.returnDate.Some? ==>
      && Valid(b.borrowDate.value)
      && Valid(b.returnDate.value)
      && DayNumber(b.returnDate.value) == DayNumber(b.borrowDate.value) + LoanDays
  }

  /** Every row carries an id AUTOINCREMENT has issued: from 1 up to the counter. */
  predicate IdsIssued(t: Table) {
    forall id :: id in t.rows ==> 1 <= id <= t.lastId
  }

  /** Every row keeps the loan invariant. */
  predicate LoansConsistent(t: Table) {
    forall id :: id in t.rows ==> LoanConsistent(t.rows[id])
  }

  /** Issued ids, the loan invariant, and every loan running exactly LoanDays. */
  predicate TableInvariant(t: Table) {
    && IdsIssued(t)
    && LoansConsistent(t)
    && forall id :: id in t.rows ==> LoanTermKept(t.rows[id])
  }

  /** The catalogue columns of two rows agree. */
  predicate SameCatalogue(a: Book, b: Book) {
    a.title == b.title && a.author == b.author && a.imageUrl == b.imageUrl
  }

  /** The loan columns (borrower, dates, status) of two rows agree. */
  predicate SameLoan(a: Book, b: Book) {
    a.borrower == b.borrower && a.borrowDate == b.borrowDate && a.returnDate == b.returnDate && a.status == b.status
  }

  /** t' has the same ids and counter as t, and every row other than id is unchanged. */
  predicate OthersUnchanged(t: Table, t': Table, id: int) {
    && t'.lastId == t.lastId
    && t'.rows.Keys == t.rows.Keys
    && forall k :: k in t.rows && k != id ==> t'.rows[k] == t.rows[k]
  }

  // ---------------------------------------------------------------------------
  // INSERT
  // ---------------------------------------------------------------------------

  /** `INSERT INTO books ...`: the row gets the next AUTOINCREMENT id. */
  function InsertRow(t: Table, b: Book): (t': Table)
    ensures t'.lastId == t.lastId + 1
    ensures t'.rows.Keys == t.rows.Keys + {t'.lastId}
    ensures t'.rows[t'.lastId] == b
    ensures forall k :: k in t.rows && k != t'.lastId ==> t'.rows[k] == t.rows[k]
  {
    Table(t.rows[t.lastId + 1 := b], t.lastId + 1)
  }

  /** The row `add_book` inserts: available, no borrower, no dates. */
  function NewBook(title: string, author: string, imageUrl: Option<string>): (b: Book)
    ensures b.status == Available && LoanConsistent(b) && LoanTermKept(b)
  {
    Book(title, author, imageUrl, None, None, None, Available)
  }

  /**
   * `add_book`: insert one available book. A missing title or author
   * violates NOT NULL, the statement fails and the table is unchanged.
   */
  function AddBook(t: Table, title: Option<string>, author: Option<string>, imageUrl: Option<string>): (t': Table)
    ensures title.None? || author.None? ==> t' == t
    ensures title.Some? && author.Some? ==>
      && t'.lastId == t.lastId + 1
      && t'.rows.Keys == t.rows.Keys + {t'.lastId}
      && t'.rows[t'.lastId] == NewBook(title.value, author.value, imageUrl)
    ensures IdsIssued(t) && title.Some? && author.Some? ==>
      && t'.lastId !in t.rows
      && forall k :: k in t.rows ==> k < t'.lastId && t'.rows[k] == t.rows[k]
  {
    if title.Some? && author.Some? then InsertRow(t, NewBook(title.value, author.value, imageUrl))
    else t
  }

  // ---------------------------------------------------------------------------
  // UPDATE
  // ---------------------------------------------------------------------------

  /** The UPDATE both borrow variants issue: row id records the loan; an absent id matches no row. */
  function Lend(t: Table, id: int, borrower: Option<string>, borrowDate: Date, due: Date): (t': Table)
    ensures id !in t.rows ==> t' == t
    ensures OthersUnchanged(t, t', id)
    ensures id in t.rows ==>
      var b := t'.rows[id];
      && b.status == Borrowed
      && b.borrower == borrower
      && b.borrowDate == Some(borrowDate)
      && b.returnDate == Some(due)
      && SameCatalogue(b, t.rows[id])
  {
    if id in t.rows then
      Table(t.rows[id := t.rows[id].(borrower := borrower, borrowDate := Some(borrowDate),
                                     returnDate := Some(due), status := Borrowed)], t.lastId)
    else t
  }

  /**
   * `borrow_book` with the date both clock reads returned: set borrower,
   * both dates and status 'borrowed' on row id, whatever its status was.
   * A due date past 9999-12-31 raises before the UPDATE runs, and an absent
   * id matches no row; either way the table is unchanged.
   */
  function Borrow(t: Table, id: int, borrower: Option<string>, today: Date): (t': Table)
    requires Valid(today)
    ensures id !in t.rows || AddDays(today, LoanDays).None? ==> t' == t
    ensures OthersUnchanged(t, t', id)
    ensures id in t.rows && AddDays(today, LoanDays).Some? ==>
      var b := t'.rows[id];
      && b.status == Borrowed
      && b.borrower == borrower
      && b.borrowDate == Some(today)
      && b.returnDate.Some? && Valid(b.returnDate.value)
      && DayNumber(b.returnDate.value) == DayNumber(today) + LoanDays
      && SameCatalogue(b, t.rows[id])
  {
    match AddDays(today, LoanDays)
    case None => t
    case Some(due) => Lend(t, id, borrower, today, due)
  }

  /**
   * `borrow_book` as written: the borrow date comes from one `datetime.now()`
   * and the return date from a second one, so the two can straddle midnight.
   * Otherwise the UPDATE is the same: status 'borrowed', the given borrower,
   * catalogue columns kept; a due date past 9999-12-31 raises before it runs.
   */
  function BorrowAsWritten(t: Table, id: int, borrower: Option<string>, firstRead: Date, secondRead: Date): (t': Table)
    requires Valid(firstRead) && Valid(secondRead)
    ensures id !in t.rows || AddDays(secondRead, LoanDays).None? ==> t' == t
    ensures OthersUnchanged(t, t', id)
    ensures id in t.rows && AddDays(secondRead, LoanDays).Some? ==>
      && t'.rows[id].status == Borrowed
      && t'.rows[id].borrower == borrower
      && SameCatalogue(t'.rows[id], t.rows[id])
      && t'.rows[id].borrowDate == Some(firstRead)
      && t'.rows[id].returnDate.Some? && Valid(t'.rows[id].returnDate.value)
      && DayNumber(t'.rows[id].returnDate.value) == DayNumber(secondRead) + LoanDays
  {
    match AddDays(secondRead, LoanDays)
    case None => t
    case Some(due) => Lend(t, id, borrower, firstRead, due)
  }

  /** When both clock reads fall on the same day, the code as written is the corrected Borrow. */
  lemma BorrowAsWrittenSameDay(t: Table, id: int, borrower: Option<string>, today: Date)
    requires Valid(today)
    ensures BorrowAsWritten(t, id, borrower, today, today) == Borrow(t, id, borrower, today)
  {
  }

  /**
   * A borrow whose second clock read falls one day after the first (the
   * request straddles midnight) records a loan one day longer than the
   * loan term, so the row breaks it.
   */
  lemma BorrowAcrossMidnightBreaksTerm(t: Table, id: int, borrower: Option<string>, firstRead: Date, secondRead: Date)
    requires Valid(firstRead) && Valid(secondRead)
    requires DayNumber(secondRead) == DayNumber(firstRead) + 1
    requires id in t.rows && AddDays(secondRead, LoanDays).Some?
    ensures var b := BorrowAsWritten(t, id, borrower, firstRead, secondRead).rows[id];
            && b.borrowDate == Some(firstRead)
            && DayNumber(b.returnDate.value) == DayNumber(firstRead) + LoanDays + 1
            && !LoanTermKept(b)
  {
  }

  /** A request that starts at the end of 1 February 2024 and reads the clock again on 2 February. */
  lemma MidnightCounterexample()
    ensures var t := Table(map[1 := NewBook("Demian", "Hermann Hesse", None)], 1);
            var t' := BorrowAsWritten(t, 1, Some("reader"), Date(2024, 2, 1), Date(2024, 2, 2));
            && TableInvariant(t)
            && !LoanTermKept(t'.rows[1])
            && DayNumber(t'.rows[1].returnDate.value) == DayNumber(t'.rows[1].borrowDate.value) + LoanDays + 1
  {
    var t := Table(map[1 := NewBook("Demian", "Hermann Hesse", None)], 1);
    var first, second, due := Date(2024, 2, 1), Date(2024, 2, 2), Date(2024, 2, 16);
    SameMonthDayNumber(first, second);
    SameMonthDayNumber(second, due);
    DayNumberAtMostLast(due);
    BorrowAcrossMidnightBreaksTerm(t, 1, Some("reader"), first, second);
  }

  /**
   * `return_book`: clear borrower and both dates and set 'available' on row
   * id; an absent id matches no row.
   */
  function Return(t: Table, id: int): (t': Table)
    ensures id !in t.rows ==> t' == t
    ensures OthersUnchanged(t, t', id)
    ensures id in t.rows ==>
      var b := t'.rows[id];
      && b.status == Available && b.borrower.None? && b.borrowDate.None? && b.returnDate.None?
      && SameCatalogue(b, t.rows[id])
  {
    if id in t.rows then
      Table(t.rows[id := t.rows[id].(borrower := None, borrowDate := None, returnDate := None,
                                     status := Available)], t.lastId)
    else t
  }

  /**
   * `edit_book`: replace title, author and image URL of row id, leaving the
   * loan columns alone. A missing title or author violates NOT NULL; an
   * absent id matches no row; either way the table is unchanged.
   */
  function Edit(t: Table, id: int, title: Option<string>, author: Option<string>, imageUrl: Option<string>): (t': Table)
    ensures id !in t.rows || title.None? || author.None? ==> t' == t
    ensures OthersUnchanged(t, t', id)
    ensures id in t.rows ==> SameLoan(t'.rows[id], t.rows[id])
    ensures id in t.rows && title.Some? && author.Some? ==>
      SameCatalogue(t'.rows[id], NewBook(title.value, author.value, imageUrl))
  {
    if id in t.rows && title.Some? && author.Some? then
      Table(t.rows[id := t.rows[id].(title := title.value, author := author.value, imageUrl := imageUrl)], t.lastId)
    else t
  }

  // ---------------------------------------------------------------------------
  // DELETE
  // ---------------------------------------------------------------------------

  /** `delete_book`: remove row id and no other; AUTOINCREMENT's counter stays. */
  function Delete(t: Table, id: int): (t': Table)
    ensures t'.lastId == t.lastId
    ensures t'.rows.Keys == t.rows.Keys - {id}
    ensures forall k :: k in t'.rows ==> t'.rows[k] == t.rows[k]
  {
    Table(t.rows - {id}, t.lastId)
  }

  // ---------------------------------------------------------------------------
  // Seeding
  // ---------------------------------------------------------------------------

  /** The eight sample rows `init_db` inserts, in insertion order. */
  const SampleBooks: seq<Book> := [
    Book("해리포터와 마법사의 돌", "J.K. 롤링", Some("https://image.yes24.com/goods/118367/XL"),
         None, None, None, Available),
    Book("반지의 제왕", "J.R.R. 톨킨", Some("https://image.yes24.com/goods/58815/XL"),
         Some("김철수"), Some(Date(2024, 2, 1)), Some(Date(2024, 2, 15)), Borrowed),
    Book("어린왕자", "생텍쥐페리", Some("https://image.yes24.com/goods/442862/XL"),
         None, None, None, Available),
    Book("1984", "조지 오웰", Some("https://image.yes24.com/goods/90434296/XL"),
         Some("이영희"), Some(Date(2024, 2, 5)), Some(Date(2024, 2, 19)), Borrowed),
    Book("데미안", "헤르만 헤세", Some("https://image.yes24.com/goods/62280/XL"),
         None, None, None, Available),
    Book("노르웨이의 숲", "무라카미 하루키", Some("https://image.yes24.com/goods/64/XL"),
         Some("박민수"), Some(Date(2024, 2, 8)), Some(Date(2024, 2, 22)), Borrowed),
    Book("호밀밭의 파수꾼", "J.D. 샐린저", Some("https://image.yes24.com/goods/2345/XL"),
         None, None, None, Available),
    Book("위대한 개츠비", "F. 스콧 피츠제럴드", Some("https://image.yes24.com/goods/73660/XL"),
         None, None, None, Available)
  ]

  /** `executemany` of INSERTs: the rows get consecutive ids after the counter. */
  function InsertAll(t: Table, bs: seq<Book>): (t': Table)
    ensures t'.lastId == t.lastId + |bs|
    ensures forall k :: k in t'.rows <==> k in t.rows || t.lastId < k <= t'.lastId
    ensures forall k :: t.lastId < k <= t'.lastId ==> t'.rows[k] == bs[k - t.lastId - 1]
    ensures forall k :: k in t.rows && !(t.lastId < k <= t'.lastId) ==> t'.rows[k] == t.rows[k]
    decreases |bs|
  {
    if |bs| == 0 then t
    else InsertAll(InsertRow(t, bs[0]), bs[1..])
  }

  /** Insert the given rows, but only into an empty table. */
  function SeedIfEmpty(t: Table, sample: seq<Book>): (t': Table)
    ensures |t.rows| > 0 ==> t' == t
    ensures |t.rows| == 0 ==> t'.lastId == t.lastId + |sample|
    ensures |t.rows| == 0 ==> forall k :: k in t'.rows <==> t.lastId < k <= t'.lastId
    ensures |t.rows| == 0 ==> forall k :: t.lastId < k <= t'.lastId ==> t'.rows[k] == sample[k - t.lastId - 1]
  {
    if |t.rows| == 0 then
      assert forall k :: k !in t.rows by {
        assert t.rows.Keys == {};
      }
      InsertAll(t, sample)
    else t
  }

  /**
   * `init_db`: seed the sample rows, but only into an empty table. Afterwards
   * the table is never empty, so running it again at the next start changes
   * nothing.
   */
  function InitDb(t: Table): (t': Table)
    ensures |t.rows| > 0 ==> t' == t
    ensures |t.rows| == 0 ==> forall k :: k in t'.rows <==> t.lastId < k <= t'.lastId
    ensures |t'.rows| > 0
    ensures IdsIssued(t) ==> IdsIssued(t')
  {
    SeededNonEmpty(t, SampleBooks);
    SeedIfEmpty(t, SampleBooks)
  }

  /** Seeding with at least one row leaves a non-empty table. */
  lemma SeededNonEmpty(t: Table, sample: seq<Book>)
    requires |sample| > 0
    ensures |SeedIfEmpty(t, sample).rows| > 0
  {
    var t' := SeedIfEmpty(t, sample);
    if |t.rows| == 0 {
      assert t'.lastId in t'.rows.Keys;
    }
  }
}

=== FILE: library_index.dfy ===
/**
 * The data side of the app's index page: the filtered book list in id
 * order, and the counts of available and borrowed books.
 */
module LibraryIndex {
  import opened Library

  /** pat occurs in s starting at position i. */
  predicate OccursAt(s: string, pat: string, i: nat) {
    i + |pat| <= |s| && s[i..i + |pat|] == pat
  }

  /** Occurrences in s[1..] are the occurrences in s shifted by one. */
  lemma OccursShift(s: string, pat: string)
    requires |s| > 0
    ensures forall i: nat :: OccursAt(s[1..], pat, i) <==> OccursAt(s, pat, i + 1)
  {
    forall i: nat
      ensures OccursAt(s[1..], pat, i) <==> OccursAt(s, pat, i + 1)
    {
      if i + |pat| <= |s| - 1 {
        assert s[1..][i..i + |pat|] == s[i + 1..i + 1 + |pat|];
      }
    }
  }

  /** Past a mismatch at position 0, s contains pat exactly when s[1..] does. */
  lemma ContainsStep(s: string, pat: string)
    requires |s| > 0 && !OccursAt(s, pat, 0)
    ensures (exists i: nat :: OccursAt(s[1..], pat, i)) <==> (exists j: nat :: OccursAt(s, pat, j))
  {
    OccursShift(s, pat);
    if exists j: nat :: OccursAt(s, pat, j) {
      var j: nat :| OccursAt(s, pat, j);
      assert j > 0;
      assert OccursAt(s[1..], pat, j - 1);
    }
  }

  /** Substring search, the model of `LIKE '%search%'`. */
  function Contains(s: string, pat: string): (r: bool)
    ensures r <==> exists i: nat :: OccursAt(s, pat, i)
    decreases |s|
  {
    if |pat| > |s| then false
    else if s[..|pat|] == pat then
      assert OccursAt(s, pat, 0);
      true
    else
      assert !OccursAt(s, pat, 0);
      ContainsStep(s, pat);
      Contains(s[1..], pat)
  }

  /**
   * The WHERE clause `index` builds: status filter 'all' imposes nothing,
   * any other value must equal the row's status; a non-empty search text must
   * occur in the title or the author.
   */
  predicate Matches(b: Book, statusFilter: string, search: string)
    ensures statusFilter == "all" && search == "" ==> Matches(b, statusFilter, search)
    ensures Matches(b, statusFilter, search) && statusFilter != "all" ==> StatusText(b.status) == statusFilter
    ensures Matches(b, statusFilter, search) && search != "" ==>
      exists i: nat :: OccursAt(b.title, search, i) || OccursAt(b.author, search, i)
  {
    && (statusFilter == "all" || StatusText(b.status) == statusFilter)
    && (search == "" || Contains(b.title, search) || Contains(b.author, search))
  }

  /** One row of the result, with its id. */
  datatype Listed = Listed(id: int, book: Book)

  /** The ids a result lists. */
  function Ids(r: seq<Listed>): set<int> {
    set x | x in r :: x.id
  }

  /** Putting a row in front of a result adds its id and shifts the rest by one. */
  lemma Prepend(x: Listed, rest: seq<Listed>)
    ensures Ids([x] + rest) == {x.id} + Ids(rest)
    ensures forall i :: 0 <= i < |rest| ==> ([x] + rest)[i + 1] == rest[i]
  {
  }

  /** The matching rows with ids from lo up to the counter, in ascending id order. */
  function ListFrom(t: Table, statusFilter: string, search: string, lo: int): (r: seq<Listed>)
    ensures forall i, j :: 0 <= i < j < |r| ==> r[i].id < r[j].id
    ensures forall i :: 0 <= i < |r| ==> lo <= r[i].id <= t.lastId
    ensures forall i :: 0 <= i < |r| ==> r[i].id in t.rows && r[i].book == t.rows[r[i].id]
    decreases t.lastId - lo
  {
    if lo > t.lastId then []
    else
      var rest := ListFrom(t, statusFilter, search, lo + 1);
      if lo in t.rows && Matches(t.rows[lo], statusFilter, search) then
        Prepend(Listed(lo, t.rows[lo]), rest);
        [Listed(lo, t.rows[lo])] + rest
      else rest
  }

  /** ListFrom lists an id exactly when it is a matching row from lo up to the counter. */
  lemma {:induction false} ListFromIds(t: Table, statusFilter: string, search: string, lo: int)
    ensures forall id :: id in Ids(ListFrom(t, statusFilter, search, lo)) <==>
      id in t.rows && lo <= id <= t.lastId && Matches(t.rows[id], statusFilter, search)
    decreases t.lastId - lo
  {
    var r := ListFrom(t, statusFilter, search, lo);
    if lo > t.lastId {
      assert Ids(r) == {};
    } else {
      var rest := ListFrom(t, statusFilter, search, lo + 1);
      ListFromIds(t, statusFilter, search, lo + 1);
      if lo in t.rows && Matches(t.rows[lo], statusFilter, search) {
        Prepend(Listed(lo, t.rows[lo]), rest);
        assert Ids(r) == {lo} + Ids(rest);
      } else {
        assert r == rest;
      }
    }
  }

  /**
   * `SELECT * FROM books WHERE ... ORDER BY id`: the matching rows in
   * ascending id order, each with its current contents. When every id is
   * one AUTOINCREMENT issued, the rows listed are exactly the matching ones.
   */
  function ListBooks(t: Table, statusFilter: string, search: string): (r: seq<Listed>)
    ensures forall i, j :: 0 <= i < j < |r| ==> r[i].id < r[j].id
    ensures forall i :: 0 <= i < |r| ==> r[i].id in t.rows && r[i].book == t.rows[r[i].id]
    ensures forall id :: id in Ids(r) ==> id in t.rows && Matches(t.rows[id], statusFilter, search)
    ensures IdsIssued(t) ==>
      forall id :: id in t.rows && Matches(t.rows[id], statusFilter, search) ==> id in Ids(r)
  {
    ListFromIds(t, statusFilter, search, 1);
    ListFrom(t, statusFilter, search, 1)
  }

  /** The ids of the rows from lo up to the counter. */
  function IdsFrom(t: Table, lo: int): set<int> {
    set id | id in t.rows && lo <= id <= t.lastId
  }

  /** With no search text, the 'available' and 'borrowed' filters split the rows. */
  lemma StatusFilterSplits(b: Book)
    ensures Matches(b, "available", "") <==> b.status == Available
    ensures Matches(b, "borrowed", "") <==> b.status == Borrowed
  {
  }

  /** One step of ListFrom: the row at lo is listed or not. */
  lemma ListFromStep(t: Table, statusFilter: string, search: string, lo: int)
    requires lo <= t.lastId
    ensures |ListFrom(t, statusFilter, search, lo)| ==
            |ListFrom(t, statusFilter, search, lo + 1)|
            + (if lo in t.rows && Matches(t.rows[lo], statusFilter, search) then 1 else 0)
  {
  }

  /** One step of IdsFrom: the id lo is a row or not. */
  lemma IdsFromStep(t: Table, lo: int)
    requires lo <= t.lastId
    ensures |IdsFrom(t, lo)| == |IdsFrom(t, lo + 1)| + (if lo in t.rows then 1 else 0)
  {
    if lo in t.rows {
      assert IdsFrom(t, lo) == IdsFrom(t, lo + 1) + {lo};
    } else {
      assert IdsFrom(t, lo) == IdsFrom(t, lo + 1);
    }
  }

  /** From lo on, the available and the borrowed rows together are all the rows. */
  lemma {:induction false} StatusCountsFrom(t: Table, lo: int)
    ensures |ListFrom(t, "available", "", lo)| + |ListFrom(t, "borrowed", "", lo)| == |IdsFrom(t, lo)|
    decreases t.lastId - lo
  {
    if lo > t.lastId {
      assert IdsFrom(t, lo) == {};
    } else {
      StatusCountsFrom(t, lo + 1);
      ListFromStep(t, "available", "", lo);
      ListFromStep(t, "borrowed", "", lo);
      IdsFromStep(t, lo);
      if lo in t.rows {
        StatusFilterSplits(t.rows[lo]);
      }
    }
  }

  /** A result whose ids strictly ascend lists each id once, so it is as long as its id set. */
  lemma {:induction false} AscendingIdsCount(r: seq<Listed>)
    requires forall i, j :: 0 <= i < j < |r| ==> r[i].id < r[j].id
    ensures |Ids(r)| == |r|
  {
    if |r| > 0 {
      AscendingIdsCount(r[1..]);
      assert r == [r[0]] + r[1..];
      Prepend(r[0], r[1..]);
      assert r[0].id !in Ids(r[1..]) by {
        forall x | x in r[1..]
          ensures x.id != r[0].id
        {
          var k :| 0 <= k < |r[1..]| && r[1..][k] == x;
          assert r[k + 1] == x;
        }
      }
    }
  }

  /** With no search text, a status filter lists as many rows as have that status. */
  lemma StatusFilterCount(t: Table, s: Status)
    requires IdsIssued(t)
    ensures |ListBooks(t, StatusText(s), "")| == |(set id | id in t.rows && t.rows[id].status == s)|
  {
    var r := ListBooks(t, StatusText(s), "");
    StatusFilterExact(t, s);
    AscendingIdsCount(r);
    forall id | id in Ids(r)
      ensures t.rows[id].status == s
    {
      var x :| x in r && x.id == id;
      var k :| 0 <= k < |r| && r[k] == x;
    }
    assert Ids(r) == set id | id in t.rows && t.rows[id].status == s;
  }

  /** What `index` hands its template. */
  datatype IndexPage = IndexPage(books: seq<Listed>, availableCount: nat, borrowedCount: nat)

  /**
   * `index`: the filtered list plus the two status counts, which between
   * them cover every book whatever the filter, and each counts exactly the
   * books with its status.
   */
  function Index(t: Table, statusFilter: string, search: string): (p: IndexPage)
    ensures p.books == ListBooks(t, statusFilter, search)
    ensures IdsIssued(t) ==> p.availableCount + p.borrowedCount == |t.rows|
    ensures IdsIssued(t) ==>
      p.availableCount == |(set id | id in t.rows && t.rows[id].status == Available)|
    ensures IdsIssued(t) ==>
      p.borrowedCount == |(set id | id in t.rows && t.rows[id].status == Borrowed)|
  {
    StatusCountsFrom(t, 1);
    assert IdsIssued(t) ==> IdsFrom(t, 1) == t.rows.Keys;
    assert IdsIssued(t) ==>
      && |ListBooks(t, "available", "")| == |(set id | id in t.rows && t.rows[id].status == Available)|
      && |ListBooks(t, "borrowed", "")| == |(set id | id in t.rows && t.rows[id].status == Borrowed)|
    by {
      if IdsIssued(t) {
        StatusFilterCount(t, Available);
        StatusFilterCount(t, Borrowed);
      }
    }
    IndexPage(ListBooks(t, statusFilter, search),
              |ListBooks(t, "available", "")|,
              |ListBooks(t, "borrowed", "")|)
  }

  /** Filter 'all' with no search text lists every book. */
  lemma ListAllIsEverything(t: Table)
    requires IdsIssued(t)
    ensures Ids(ListBooks(t, "all", "")) == t.rows.Keys
  {
  }

  /** A status filter lists exactly the books with that status. */
  lemma StatusFilterExact(t: Table, s: Status)
    requires IdsIssued(t)
    ensures var r := ListBooks(t, StatusText(s), "");
            && (forall i :: 0 <= i < |r| ==> r[i].book.status == s)
            && (forall id :: id in t.rows && t.rows[id].status == s ==> id in Ids(r))
  {
    var r := ListBooks(t, StatusText(s), "");
    forall i | 0 <= i < |r|
      ensures r[i].book.status == s
    {
      assert StatusText(r[i].book.status) == StatusText(s);
    }
  }
}

=== FILE: library_properties.dfy ===
/**
 * Properties of the book-lending transitions: each keeps the table
 * invariant, borrow and return undo each other, return is idempotent,
 * AUTOINCREMENT never reissues an id, and seeding installs the eight
 * sample rows with three fourteen-day loans.
 */
module LibraryProperties {
  import opened Wrappers
  import opened CivilDate
  import opened Library

  /** The number of rows with the given status. */
  function CountStatus(bs: seq<Book>, s: Status): (n: nat)
    ensures n <= |bs|
  {
    if |bs| == 0 then 0
    else (if bs[0].status == s then 1 else 0) + CountStatus(bs[1..], s)
  }

  /** Every row of a sequence keeps the loan invariant and loan term. */
  predicate AllLoansConsistent(bs: seq<Book>) {
    forall i :: 0 <= i < |bs| ==> LoanConsistent(bs[i]) && LoanTermKept(bs[i])
  }

  // ---------------------------------------------------------------------------
  // Invariant preservation
  // ---------------------------------------------------------------------------

  // Each transition keeps the id bound and the loan invariant on every table
  // the code as written can reach, and the whole table invariant (the 14-day
  // term included) on every table the corrected borrow can reach.

  lemma AddBookKeepsInvariant(t: Table, title: Option<string>, author: Option<string>, imageUrl: Option<string>)
    requires IdsIssued(t) && LoansConsistent(t)
    ensures var t' := AddBook(t, title, author, imageUrl); IdsIssued(t') && LoansConsistent(t')
    ensures TableInvariant(t) ==> TableInvariant(AddBook(t, title, author, imageUrl))
  {
  }

  lemma BorrowKeepsInvariant(t: Table, id: int, borrower: Option<string>, today: Date)
    requires IdsIssued(t) && LoansConsistent(t) && Valid(today)
    ensures var t' := Borrow(t, id, borrower, today); IdsIssued(t') && LoansConsistent(t')
    ensures TableInvariant(t) ==> TableInvariant(Borrow(t, id, borrower, today))
  {
    var t' := Borrow(t, id, borrower, today);
    forall k | k in t'.rows
      ensures 1 <= k <= t'.lastId && LoanConsistent(t'.rows[k])
      ensures TableInvariant(t) ==> LoanTermKept(t'.rows[k])
    {
      if k != id {
        assert t'.rows[k] == t.rows[k];
      }
    }
  }

  lemma ReturnKeepsInvariant(t: Table, id: int)
    requires IdsIssued(t) && LoansConsistent(t)
    ensures var t' := Return(t, id); IdsIssued(t') && LoansConsistent(t')
    ensures TableInvariant(t) ==> TableInvariant(Return(t, id))
  {
    var t' := Return(t, id);
    forall k | k in t'.rows
      ensures 1 <= k <= t'.lastId && LoanConsistent(t'.rows[k])
      ensures TableInvariant(t) ==> LoanTermKept(t'.rows[k])
    {
      if k != id {
        assert t'.rows[k] == t.rows[k];
      }
    }
  }

  lemma EditKeepsInvariant(t: Table, id: int, title: Option<string>, author: Option<string>, imageUrl: Option<string>)
    requires IdsIssued(t) && LoansConsistent(t)
    ensures var t' := Edit(t, id, title, author, imageUrl); IdsIssued(t') && LoansConsistent(t')
    ensures TableInvariant(t) ==> TableInvariant(Edit(t, id, title, author, imageUrl))
  {
    var t' := Edit(t, id, title, author, imageUrl);
    forall k | k in t'.rows
      ensures 1 <= k <= t'.lastId && LoanConsistent(t'.rows[k])
      ensures TableInvariant(t) ==> LoanTermKept(t'.rows[k])
    {
      assert SameLoan(t'.rows[k], t.rows[k]);
    }
  }

  lemma DeleteKeepsInvariant(t: Table, id: int)
    requires IdsIssued(t) && LoansConsistent(t)
    ensures var t' := Delete(t, id); IdsIssued(t') && LoansConsistent(t')
    ensures TableInvariant(t) ==> TableInvariant(Delete(t, id))
  {
  }

  /**
   * The borrow as written keeps the loan invariant: the row it touches is
   * borrowed with both dates set. Only the loan term can break, as
   * BorrowAcrossMidnightBreaksTerm shows.
   */
  lemma BorrowAsWrittenKeepsLoansConsistent(t: Table, id: int, borrower: Option<string>, firstRead: Date, secondRead: Date)
    requires Valid(firstRead) && Valid(secondRead)
    requires IdsIssued(t) && LoansConsistent(t)
    ensures var t' := BorrowAsWritten(t, id, borrower, firstRead, secondRead);
            IdsIssued(t') && LoansConsistent(t')
  {
    var t' := BorrowAsWritten(t, id, borrower, firstRead, secondRead);
    forall k | k in t'.rows
      ensures 1 <= k <= t'.lastId && LoanConsistent(t'.rows[k])
    {
      if k != id {
        assert t'.rows[k] == t.rows[k];
      }
    }
  }

  /**
   * Ids stay within those AUTOINCREMENT has issued under every transition,
   * so every reachable table satisfies IdsIssued whether or not its loans
   * keep the loan term. This lemma covers the fresh table and add;
   * InitDb's own contract covers seeding, and UpdatesKeepIdsIssued and
   * BorrowsKeepIdsIssued cover the rest.
   */
  lemma InsertsKeepIdsIssued(t: Table, title: Option<string>, author: Option<string>, imageUrl: Option<string>)
    requires IdsIssued(t)
    ensures IdsIssued(EmptyTable)
    ensures IdsIssued(AddBook(t, title, author, imageUrl))
  {
  }

  /** Return, edit and delete keep ids issued. */
  lemma UpdatesKeepIdsIssued(t: Table, id: int, title: Option<string>, author: Option<string>, imageUrl: Option<string>)
    requires IdsIssued(t)
    ensures IdsIssued(Return(t, id))
    ensures IdsIssued(Edit(t, id, title, author, imageUrl))
    ensures IdsIssued(Delete(t, id))
  {
    SameIdsKeepIdsIssued(t, Return(t, id), id);
    SameIdsKeepIdsIssued(t, Edit(t, id, title, author, imageUrl), id);
  }

  /** Both borrows, the one as written and the corrected one, keep ids issued. */
  lemma BorrowsKeepIdsIssued(t: Table, id: int, borrower: Option<string>, firstRead: Date, secondRead: Date)
    requires IdsIssued(t) && Valid(firstRead) && Valid(secondRead)
    ensures IdsIssued(Borrow(t, id, borrower, firstRead))
    ensures IdsIssued(BorrowAsWritten(t, id, borrower, firstRead, secondRead))
  {
    SameIdsKeepIdsIssued(t, Borrow(t, id, borrower, firstRead), id);
    SameIdsKeepIdsIssued(t, BorrowAsWritten(t, id, borrower, firstRead, secondRead), id);
  }

  /** An update that keeps the ids and the counter keeps them issued. */
  lemma SameIdsKeepIdsIssued(t: Table, t': Table, id: int)
    requires IdsIssued(t) && OthersUnchanged(t, t', id)
    ensures IdsIssued(t')
  {
  }

  /** The sample rows keep the loan invariant and every seeded loan runs fourteen days. */
  lemma SampleBooksConsistent()
    ensures AllLoansConsistent(SampleBooks)
  {
    forall i | 0 <= i < |SampleBooks|
      ensures LoanConsistent(SampleBooks[i]) && LoanTermKept(SampleBooks[i])
    {
      var b := SampleBooks[i];
      if b.status == Borrowed {
        SameMonthDayNumber(b.borrowDate.value, b.returnDate.value);
      }
    }
  }

  /** Seeding with rows that keep the loan invariant keeps the table invariant. */
  lemma SeedKeepsInvariant(t: Table, sample: seq<Book>)
    requires IdsIssued(t) && LoansConsistent(t) && AllLoansConsistent(sample)
    ensures var t' := SeedIfEmpty(t, sample); IdsIssued(t') && LoansConsistent(t')
    ensures TableInvariant(t) ==> TableInvariant(SeedIfEmpty(t, sample))
  {
    var t' := SeedIfEmpty(t, sample);
    if |t.rows| == 0 {
      forall k | k in t'.rows
        ensures 1 <= k <= t'.lastId && LoanConsistent(t'.rows[k]) && LoanTermKept(t'.rows[k])
      {
        assert t'.rows[k] == sample[k - t.lastId - 1];
      }
    }
  }

  /** `init_db` keeps the same invariants, since every sample row is consistent. */
  lemma InitDbKeepsInvariant(t: Table)
    requires IdsIssued(t) && LoansConsistent(t)
    ensures IdsIssued(InitDb(t)) && LoansConsistent(InitDb(t))
    ensures TableInvariant(t) ==> TableInvariant(InitDb(t))
  {
    SampleBooksConsistent();
    SeedKeepsInvariant(t, SampleBooks);
  }

  // ---------------------------------------------------------------------------
  // Seeding
  // ---------------------------------------------------------------------------

  /** Three of the eight sample books are out on loan. */
  lemma SampleBooksCounts()
    ensures |SampleBooks| == 8
    ensures CountStatus(SampleBooks, Borrowed) == 3
    ensures CountStatus(SampleBooks, Available) == 5
  {
  }

  /** Seeding a freshly created table numbers the rows from 1; seeding again changes nothing. */
  lemma SeedFreshTable(sample: seq<Book>)
    requires |sample| > 0
    ensures var t := SeedIfEmpty(EmptyTable, sample);
            && t.lastId == |sample|
            && (forall k :: k in t.rows <==> 1 <= k <= |sample|)
            && (forall k :: 1 <= k <= |sample| ==> t.rows[k] == sample[k - 1])
            && SeedIfEmpty(t, sample) == t
  {
    var t := SeedIfEmpty(EmptyTable, sample);
    assert 1 in t.rows;
  }

  /**
   * Seeding a freshly created table gives ids 1 to 8 holding the sample
   * rows in order; seeding a table that already has rows changes nothing.
   */
  lemma InitDbOnFreshTable()
    ensures InitDb(EmptyTable).lastId == 8
    ensures forall k :: k in InitDb(EmptyTable).rows <==> 1 <= k <= 8
    ensures forall k :: 1 <= k <= 8 ==> InitDb(EmptyTable).rows[k] == SampleBooks[k - 1]
    ensures TableInvariant(InitDb(EmptyTable))
    ensures InitDb(InitDb(EmptyTable)) == InitDb(EmptyTable)
  {
    SampleBooksCounts();
    SeedFreshTable(SampleBooks);
    assert TableInvariant(EmptyTable);
    InitDbKeepsInvariant(EmptyTable);
  }

  /**
   * Any empty table, including one whose rows were all deleted before a
   * restart, is seeded with the eight sample rows in order under the next
   * eight ids after the counter.
   */
  lemma InitDbOnEmpty(t: Table)
    requires |t.rows| == 0
    ensures InitDb(t).lastId == t.lastId + 8
    ensures forall k :: k in InitDb(t).rows <==> t.lastId < k <= t.lastId + 8
    ensures forall k :: t.lastId < k <= t.lastId + 8 ==> InitDb(t).rows[k] == SampleBooks[k - t.lastId - 1]
  {
    SampleBooksCounts();
    SeedEmpty(t, SampleBooks);
  }

  /** Seeding an empty table puts the given rows, in order, under the next ids. */
  lemma SeedEmpty(t: Table, sample: seq<Book>)
    requires |t.rows| == 0
    ensures var t' := SeedIfEmpty(t, sample);
            && t'.lastId == t.lastId + |sample|
            && (forall k :: k in t'.rows <==> t.lastId < k <= t.lastId + |sample|)
            && (forall k :: t.lastId < k <= t.lastId + |sample| ==> t'.rows[k] == sample[k - t.lastId - 1])
  {
  }

  /** `init_db` runs at every start; after the first run it changes nothing. */
  lemma InitDbIdempotent(t: Table)
    ensures InitDb(InitDb(t)) == InitDb(t)
  {
  }

  // ---------------------------------------------------------------------------
  // Borrow and return
  // ---------------------------------------------------------------------------

  /** Returning twice is returning once. */
  lemma ReturnIdempotent(t: Table, id: int)
    ensures Return(Return(t, id), id) == Return(t, id)
  {
  }

  /** Returning an available book changes nothing, given the loan invariant. */
  lemma ReturnAvailableIsNoOp(t: Table, id: int)
    requires id in t.rows && t.rows[id].status == Available && LoanConsistent(t.rows[id])
    ensures Return(t, id) == t
  {
    assert Return(t, id).rows[id] == t.rows[id];
    assert Return(t, id).rows == t.rows;
  }

  /** Borrowing an available book and returning it restores the table. */
  lemma ReturnUndoesBorrow(t: Table, id: int, borrower: Option<string>, today: Date)
    requires Valid(today)
    requires id in t.rows && t.rows[id].status == Available && LoanConsistent(t.rows[id])
    ensures Return(Borrow(t, id, borrower, today), id) == t
  {
    var t' := Return(Borrow(t, id, borrower, today), id);
    assert t'.rows[id] == t.rows[id];
    assert t'.rows == t.rows;
  }

  /** Borrowing a book twice leaves only the second loan: the last borrow wins. */
  lemma BorrowOverwritesLoan(t: Table, id: int, b1: Option<string>, d1: Date, b2: Option<string>, d2: Date)
    requires Valid(d1) && Valid(d2)
    requires AddDays(d2, LoanDays).Some?
    ensures Borrow(Borrow(t, id, b1, d1), id, b2, d2) == Borrow(t, id, b2, d2)
  {
    var due2 := AddDays(d2, LoanDays).value;
    if AddDays(d1, LoanDays).Some? {
      var due1 := AddDays(d1, LoanDays).value;
      var t1 := Lend(t, id, b1, d1, due1);
      assert Borrow(t, id, b1, d1) == t1;
      assert Borrow(t1, id, b2, d2) == Lend(t1, id, b2, d2, due2);
      LendTwice(t, id, b1, d1, due1, b2, d2, due2);
    }
  }

  /** A second loan of the same row replaces the first. */
  lemma LendTwice(t: Table, id: int, b1: Option<string>, d1: Date, due1: Date, b2: Option<string>, d2: Date, due2: Date)
    ensures Lend(Lend(t, id, b1, d1, due1), id, b2, d2, due2) == Lend(t, id, b2, d2, due2)
  {
    if id in t.rows {
      var x := t.rows[id];
      var x1 := x.(borrower := b1, borrowDate := Some(d1), returnDate := Some(due1), status := Borrowed);
      var x2 := x.(borrower := b2, borrowDate := Some(d2), returnDate := Some(due2), status := Borrowed);
      assert x1.(borrower := b2, borrowDate := Some(d2), returnDate := Some(due2), status := Borrowed) == x2;
      assert t.rows[id := x1][id := x2] == t.rows[id := x2];
    }
  }

  /** The due date a borrow records is the one date fourteen days on. */
  lemma BorrowDueDateUnique(t: Table, id: int, borrower: Option<string>, today: Date, due: Date)
    requires Valid(today) && Valid(due)
    requires DayNumber(due) == DayNumber(today) + LoanDays
    requires id in t.rows
    ensures Borrow(t, id, borrower, today).rows[id].returnDate == Some(due)
  {
    DayNumberAtMostLast(due);
    var r := Borrow(t, id, borrower, today).rows[id].returnDate.value;
    DayNumberInjective(r, due);
  }

  // ---------------------------------------------------------------------------
  // Ids
  // ---------------------------------------------------------------------------

  /** A deleted id is never handed out again by a later add. */
  lemma DeletedIdNotReused(t: Table, id: int, title: string, author: string, imageUrl: Option<string>)
    requires IdsIssued(t) && id in t.rows
    ensures var t' := AddBook(Delete(t, id), Some(title), Some(author), imageUrl);
            id !in t'.rows
  {
  }
}

=== FILE: wrappers.dfy ===
/** A value that may be absent: SQL NULL, Python None, or the failure of a partial operation. */
module Wrappers {

  datatype Option<+T> = None | Some(value: T)
}
